=== FILE: README.md ===
# UMS exam seating, modelled in Dafny

This project models the exam-seating core of the UMS backend. It covers:

- The `AssignRoomsForExams` request handler. It checks the exam time and then the duration. It selects the rooms of the requested blocks and the students of the requested branches and admission years. It optionally shuffles them and hands them to the allocator.
- `GenerateExamAssignments`, the allocator. It walks the selected rooms in order and numbers each room's benches row by row or column by column. It seats students from the front of the per-branch queues, two per bench. A room takes a single branch (one-branch policy) or interleaves the listed branches through a cursor (two-branch policy). It records every visited room under its room number.
- The helpers it relies on:
  - `extractYear`, `extractSection`, `generateStudentIDs` and `ContainsInt`.
  - The in-memory ledger queries `FindStudentAssignment` and `FilterAssignmentsByTOE`.
  - The log line `LogAssignments` writes per run.
  - The time filter of `FetchAssignmentsByTime`.
  - The student search of `GetStudentAssignment`.

The modules follow the program:

| module | what it holds |
|---|---|
| `Domain` | rooms, classes, the request policy and seat records |
| `StudentIds` | id formatting and parsing |
| `BenchLayout` | bench numbering |
| `Queues` | the per-branch queues, their counters and what was drawn from them |
| `Seating` | reference functions for one room and a whole run, with the layout properties |
| `Allocator` | the allocator's loops as methods, each proved equal to the reference functions |
| `Ledger` | the ledger, the log and the lookup |
| `Selection` | the handler |

The model proves these properties of the allocator:

- Every room fills its benches in numbering order, left seat before right, with at most two students per bench.
- Each branch's seated students are a prefix of its queue, in order.
- When the catalog lists every id once, no branch is requested twice and the handler does not shuffle the queues, no student is seated twice.
- While the run's log line is under the scanner's 64 KiB line limit, a seated student looked up in it at an exam time of whole seconds, with the same time text (and so the same UTC offset) as the allocation request, is found in their room, with their seat's side and row. Looked up with any other text, even one naming the same instant, the student is not found.
- The allocator's outcome is determined by its input: it panics exactly when the run it would make reaches a room whose pass seats a short id, and otherwise it returns the one completed run.

## Model

| member | source | states |
|---|---|---|
| StudentIds.Pad2RoundTrip | helpers/helpers.go:124 | reading the two-digit zero-padded serial back gives the serial |
| StudentIds.AtoiOfTwo | helpers/helpers.go:316 | the parse of a two-character string: two digits, a sign and a digit, or a syntax error |
| StudentIds.ExtractYear | helpers/helpers.go:315-318 | the year is the value of the first two characters, and 0 when they do not parse; it lies in -9..99 |
| StudentIds.ExtractSection | helpers/helpers.go:320-322 | the section is a one-character string holding the id's third character |
| StudentIds.GenerateStudentIds | helpers/helpers.go:121-128 | produces `capacity` ids (none when capacity <= 0); id k is prefix + section + the two-digit serial k+1 |
| StudentIds.GeneratedIdsDistinct | helpers/helpers.go:121-128 | distinct serials give distinct ids, so a generated class has no duplicate id |
| StudentIds.GeneratedIdFields | helpers/helpers.go:315-322 | on a generated id, extractYear reads the prefix's year and extractSection reads the prefix's third character, not the class section |
| BenchLayout.BenchCell | helpers/helpers.go:163-170 | bench b's (row, column) lies on the grid and numbers back to b under the chosen numbering |
| BenchLayout.InGridBenchRange | helpers/helpers.go:163-170 | every grid position carries a bench number in 0..rows*columns-1 |
| BenchLayout.BenchCellInjective | helpers/helpers.go:163-170 | two different benches never share a grid position |
| BenchLayout.SlotsIncrease | helpers/helpers.go:162-217 | seats of a room come in strictly increasing filling order; the k-th is at slot k or later |
| BenchLayout.SeatsDistinct | helpers/helpers.go:162-217 | within a room no (row, column, side) is taken twice |
| BenchLayout.AtMostTwoPerBench | helpers/helpers.go:162-217 | no bench holds three students |
| BenchLayout.RoomSeatBound | helpers/helpers.go:142 | a room seats at most 2 * rows * columns students |
| Queues.DrawStep | helpers/helpers.go:173-175 | popping a queue head extends the drawn ids by that head and keeps every branch's queue = drawn + left |
| Queues.DrawnTrans | helpers/helpers.go:139-305 | two rounds of draws compose into one |
| Queues.DrawnFromOne | helpers/helpers.go:162-217 | taking the first n ids of one branch is a round of draws from that branch |
| Queues.DrawnNoDuplicates | helpers/helpers.go:139-305 | ids drawn from queues whose ids are all distinct are distinct |
| Queues.DrawnIdsQueued | helpers/helpers.go:139-305 | every drawn id was queued under the branch it was drawn from |
| Queues.DrawnRestQueued | helpers/helpers.go:139-305 | what is still queued after draws was queued before, under the same branch |
| Seating.NextSupplied | helpers/helpers.go:223-225 | the skip stops at the first position at or after `from` whose branch has students, or at the end, passing only exhausted branches |
| Seating.CurrentBranch | helpers/helpers.go:150-156 | a one-branch room gets the first listed branch with students, and "" when every listed branch is exhausted (also when that first branch is itself named "") |
| Seating.SeatAt | helpers/helpers.go:163-191 | seat place k is on bench k/2, on the grid, carrying the student, exam time and duration |
| Seating.SingleBranchSeats | helpers/helpers.go:162-217 | a one-branch room seats min(seats, queue length) students, and its ids are the queue's first ones in order |
| Seating.SingleBranchLayout | helpers/helpers.go:162-217 | one-branch seats fill benches in order, left on even places and right on odd, stamped with the exam time |
| Seating.PairBench | helpers/helpers.go:222-297 | a bench stops the room iff no branch from the cursor on has students; otherwise it seats one or two students, and with only one the cursor ends past the order |
| Seating.PairFill | helpers/helpers.go:218-297 | a two-branch room pass from a bench on seats at most two students per remaining bench, one branch tag per seat |
| Seating.PairFillFacts | helpers/helpers.go:218-297 | a two-branch room fills benches in order, each student drawn from the front of a listed branch's queue |
| Seating.PartnerSearch | helpers/helpers.go:262-268 | the right-seat search returns to the left seat's branch only when every other branch is exhausted |
| Seating.PartnerIsOtherBranch | helpers/helpers.go:262-294 | with distinct branch names and another branch still supplied, the right seat comes from a different branch |
| Seating.PairedBranchesDiffer | helpers/helpers.go:218-297 | with distinct names and two supplied branches, a filled first bench mixes two branches |
| Seating.FillRoom | helpers/helpers.go:149-298 | a room's pass under any policy seats no more students than the room has seats, one branch tag per seat |
| Seating.RoomFacts | helpers/helpers.go:149-298 | under any policy a room's seats fill benches in order from bench 0, stay within capacity, come from listed branches' queue fronts and carry the exam time |
| Seating.OneBranchPerRoom | helpers/helpers.go:149-217 | every seat of a one-branch room is drawn from the room's current branch |
| Seating.Run | helpers/helpers.go:139-305 | defines a run: rooms visited in order from the students handed in, each recorded as its pass over the queues the previous rooms left, and in one-branch mode only while a listed branch has students |
| Seating.RunPrefix | helpers/helpers.go:139-305 | a run is determined by its input and its length: of two runs over the same rooms and students, the shorter is a prefix of the longer |
| Seating.RunExtend | helpers/helpers.go:300-304 | recording one more visited room extends the run |
| Seating.RunDrawn | helpers/helpers.go:139-305 | over a run, each branch's seated ids followed by its remaining queue is its original queue |
| Seating.RunBranches | helpers/helpers.go:139-305 | every student seated in a run comes from a branch of the policy |
| Seating.RunSeatsEachStudentOnce | helpers/helpers.go:139-305 | when every queued id is distinct, no student is seated twice |
| Seating.RunWithinCapacity | helpers/helpers.go:139-305 | a run seats no more students than the visited rooms have seats |
| Seating.OneBranchScenario | helpers/helpers.go:162-217 | a 2x2 room numbered row by row with five students seats them at (1,1)L, (1,1)R, (1,2)L, (1,2)R, (2,1)L |
| Seating.TwoBranchRoomStopsEarly | helpers/helpers.go:222-228 | a 1x2 room with order X, Y: bench 0 seats x1 and y1 and leaves the cursor on Y; bench 1's left-seat search starts at the exhausted Y and runs off the order without wrapping, so x2 and x3 stay queued |
| Seating.TwoBranchRightMissStops | helpers/helpers.go:262-268 | a 1x2 room with order X, Y and Y empty: bench 0's right-seat search finds no branch and leaves the cursor past the order, so bench 1 stops and x2 stays queued |
| Allocator.PickBranch | helpers/helpers.go:150-156 | the counter-based branch search returns the current branch |
| Allocator.SkipExhausted | helpers/helpers.go:223-225 | the counter-based cursor skip stops where the queue-based one does |
| Allocator.Pop | helpers/helpers.go:173-175 | pops the head of the branch's queue and keeps the counters equal to the queue lengths |
| Allocator.SeatNext | helpers/helpers.go:172-192 | seats the next queue head at its place in the filling order; aborts iff that id is shorter than three characters |
| Allocator.SeatOneBranch | helpers/helpers.go:162-217 | aborts iff a student it would seat has a short id; otherwise seats exactly the one-branch room's seats and leaves the branch's queue without them |
| Allocator.SeatLeft | helpers/helpers.go:223-261 | the left seat goes to the head of the first supplied branch from the cursor; the room stops when there is none |
| Allocator.SeatRight | helpers/helpers.go:262-294 | the right seat goes to the head of the first supplied branch after the left one, wrapping only off the end |
| Allocator.SeatPairBench | helpers/helpers.go:222-297 | one two-branch bench loop iteration computes exactly the reference bench pass, or aborts iff it seats a short id |
| Allocator.AdvanceBench | helpers/helpers.go:222-297 | one bench iteration keeps the loop's state a prefix of the room's reference pass |
| Allocator.SeatTwoBranches | helpers/helpers.go:218-297 | aborts iff the reference pass seats a short id; otherwise it is the reference pass (seats, branches, queues left) |
| Allocator.ShortSeatQueued | helpers/helpers.go:246-247 | a short id that a two-branch room would seat was queued, so the input was not well formed |
| Allocator.SeatRoom | helpers/helpers.go:149-298 | the run stops iff one-branch mode finds no branch; otherwise it aborts iff the room's reference pass seats a short id (which was then queued), and when it does not, the room is recorded as that pass |
| Allocator.SingleBranchShort | helpers/helpers.go:162-192 | a one-branch room seats a short id iff one of the queue heads it takes is short |
| Allocator.VisitRoom | helpers/helpers.go:140-304 | one room-loop iteration stops iff one-branch mode finds no branch, aborts iff the room's reference pass seats a short id, and otherwise extends the run by that pass |
| Allocator.GenerateExamAssignments | helpers/helpers.go:130-313 | when it aborts, the run so far reaches a room, with students and a branch left, whose reference pass seats a short id; otherwise it returns a completed run with no short id and the queues it leaves: no room when there are no students, every room in two-branch mode, and an early stop in one-branch mode only when every listed branch is exhausted |
| Allocator.Completed | helpers/helpers.go:139-305 | defines a normal end: a run with no short id that visits no room without students and stops early only when one-branch mode finds no branch |
| Allocator.Aborts | helpers/helpers.go:172-178 | defines a panic: a run that reaches a room, with students and a branch left, whose pass seats an id too short for extractYear and extractSection |
| Allocator.CompletedUnique | helpers/helpers.go:139-305 | two completed runs over the same input are the same run, so the normal outcome is unique |
| Allocator.AbortExcludesCompletion | helpers/helpers.go:139-305 | an input on which the run aborts has no completed run, so abort and completion are exclusive |
| Ledger.FindStudentAssignment | helpers/helpers.go:332-339 | returns the room of the first record with the student and time, "" when there is none |
| Ledger.ByToe | helpers/helpers.go:341-349 | a record is kept iff it is in the ledger at exactly that time |
| Ledger.FilterAssignmentsByToe | helpers/helpers.go:341-349 | the filter loop computes the time filter |
| Ledger.ByToeAppend | helpers/helpers.go:341-349 | filtering keeps order: filtering a concatenation concatenates the filtered parts |
| Ledger.ByToeIdempotent | helpers/helpers.go:341-349 | filtering twice by the same time is filtering once |
| Ledger.ObjectsMember | helpers/helpers.go:388-394 | a room is kept iff it is an object element of the list |
| Ledger.ObjectsAppend | helpers/helpers.go:388-394 | keeping the objects of a concatenation keeps each part's objects, in order |
| Ledger.FetchAssignmentsByTime | helpers/helpers.go:377-398 | fails iff some line is not JSON or is too long for the scanner's 64 KiB limit (helpers/helpers.go:376, 400-402); otherwise returns the room objects of the lines logged at exactly the target time, in file order |
| Ledger.AppendObjects | helpers/helpers.go:389-393 | the inner loop appends exactly the object elements of a line's list |
| Ledger.CollectedStep | helpers/helpers.go:377-398 | reading one more line adds exactly that line's room objects |
| Ledger.Collected | helpers/helpers.go:377-398 | defines the fetch: the object elements of the room lists of the lines logged at the target time, in file order |
| Ledger.CollectedAppend | helpers/helpers.go:377-398 | appending lines to the log appends their rooms to every later fetch |
| Ledger.CollectedMember | helpers/helpers.go:384-396 | a room is fetched iff some line logged at the target time lists it |
| Ledger.Answer | helpers/helpers.go:428-446 | a seat that ends the search, with no time field or with the requested time's text, answers with a room, a missing-time error or a row/side error, never "not found" |
| Ledger.ScanRoom | helpers/helpers.go:422-449 | answers "not found" iff no seat of the student has no time field or the requested time's text (a time of another text or not a string is passed over); otherwise the first such seat decides |
| Ledger.LookupStudent | helpers/helpers.go:419-452 | over all fetched rooms: "not found" iff no deciding seat; otherwise the first deciding seat, in room order, gives the answer |
| Ledger.GetStudentAssignment | helpers/helpers.go:414-455 | a failed fetch (a line not JSON or over 64 KiB) comes first; otherwise the answer is that of the first deciding seat among the rooms logged at the exam time |
| Ledger.WholeSecond | helpers/helpers.go:42 | the RFC 3339 time of the log line names the start of the exam time's second: at most the exam time, less than a second before it, and whole |
| Ledger.LogRecordAsWritten | helpers/helpers.go:41-45 | the written line exists iff the run visited a room; its room field is the first room's and its time the exam time cut to whole seconds |
| Ledger.LogRecord | helpers/helpers.go:41-45 | the corrected line always exists, carries the exam time cut to whole seconds, and agrees with the written line when that one exists |
| Ledger.EmptyRunPanics | helpers/helpers.go:43 | a run over no rooms visits no room and logging it as written fails |
| Ledger.NoRoomVisitedPanics | helpers/helpers.go:43 | an allocation that completes with no known block, no selected student, or in one-branch mode no supplied branch at the first room visits no room, and logging it as written fails |
| Ledger.ObjectsWrapped | helpers/helpers.go:388-394 | rooms written as objects are all read back, in order |
| Ledger.RunLogFetched | helpers/helpers.go:384-394 | for a run's log line read back whole (under 64 KiB), fetching it at the whole second it records gives back every room object written for it, and at any other instant nothing |
| Ledger.FractionalTimeNotFound | helpers/helpers.go:384-386 | an exam time with a fraction of a second is logged at the start of its second, so a lookup at the exam time fetches nothing and answers "not found" |
| Ledger.CandidatesOfRun | helpers/helpers.go:184-191 | the seats a lookup visits in a run's log are the run's seats, room after room |
| Ledger.NotSeatedNotFound | helpers/helpers.go:454 | a student seated nowhere in the run is not found in its log |
| Ledger.LookupSeated | helpers/helpers.go:419-440 | with no student seated twice, each seated student's first deciding seat answers their room, "side - Row: n" and the exam time |
| Ledger.OtherTimeTextNotFound | helpers/helpers.go:428-429 | a lookup whose time text differs from the one the run's seats were logged with finds no deciding seat, at any fetched instant |
| Ledger.RunLookup | helpers/helpers.go:414-455 | after a run over distinct ids at an exam time of whole seconds, with the run's log line under 64 KiB, looking a seated student up in the run's log, with the time text the run was logged with, finds the selected room they sit in, with side and row |
| Ledger.RunRoomNumber | helpers/helpers.go:300-304 | room i of a run is recorded under the number of the i-th selected room |
| Selection.ContainsInt | helpers/helpers.go:360-367 | true iff the value occurs in the slice |
| Selection.BlockRooms | handlers/handlers.go:32-37 | defines the selected rooms: the rooms of each requested block the catalog has, block after block in request order |
| Selection.SelectRooms | handlers/handlers.go:32-37 | the room selection loop computes the rooms of the requested blocks, block after block |
| Selection.BlockRoomsAppend | handlers/handlers.go:32-37 | requesting two block lists in turn selects their rooms in turn |
| Selection.BlockRoomsMember | handlers/handlers.go:32-37 | a room is selected iff it belongs to a requested block the catalog has |
| Selection.NoKnownBlockNoRooms | handlers/handlers.go:32-37 | when no requested block is known, no room is selected |
| Selection.SelectStudents | handlers/handlers.go:39-48 | the nested selection loops compute the selected queues |
| Selection.Selected | handlers/handlers.go:39-48 | defines the selected queues: branch by branch in request order, each class of a requested year appends its ids to its branch's queue |
| Selection.AddClassesEffect | handlers/handlers.go:41-46 | a branch's classes extend its queue by their requested-year ids when one of them is of a requested year, and otherwise change nothing |
| Selection.SelectedKeys | handlers/handlers.go:39-48 | a branch gets a queue iff it was requested, is in the catalog and has a class of a requested year, even one with no students |
| Selection.SelectedQueue | handlers/handlers.go:39-48 | when no branch is requested twice, a branch's queue is the ids of its requested-year classes, in order |
| Selection.DuplicateBranchQueuedTwice | handlers/handlers.go:40-46 | a catalog branch with a class of a requested year, requested twice, has its requested-year ids queued twice |
| Selection.YearIdsMember | handlers/handlers.go:42-46 | an id is selected iff some requested-year class holds it |
| Selection.YearIdsDistinct | handlers/handlers.go:42-46 | the year filter keeps ids distinct and only keeps ids the classes hold |
| Selection.SelectedDistinct | handlers/handlers.go:39-48 | a catalog with every id once and no repeated branch request yields queues with every id once |
| Selection.SelectedRunSeatsEachStudentOnce | handlers/handlers.go:39-54 | a run over the selected rooms and students seats no student twice |
| Selection.AssignRoomsForExams | handlers/handlers.go:12-54 | a bad body, then a bad time, then a bad duration are rejected in that order; otherwise the selected rooms and (shuffled when asked) queues go to the allocator, and the result is the completed run over them with the queues it leaves, or an abort exactly where the run reaches a short id |

## Left out

- Files and the network are not modelled. The log file is a sequence of already-decoded lines. Opening and appending to it, and the errors of those steps, are not modelled. Of the scanning errors only the over-long line is modelled, as a `TooLong` line. Gin binding and HTTP status codes are not modelled either. An unbindable body is `None`.
- JSON is not modelled. A decoded log field is an `Option`, and a field that is present but of the wrong dynamic type is treated as missing. The seat's time is the exception: it is absent, present but not a string (null, a number, ...), or a string, and only a string can match the requested time (helpers/helpers.go:428-429). Two type errors panic in Go and are not modelled: a non-string `time` value of a line (helpers/helpers.go:385), and a missing or non-string room number at a seat that decides the search (helpers/helpers.go:435). A non-integral JSON row is modelled as an integer.
- StudentIds.ExtractSection: ids are sequences of characters and each character is taken as one byte, so ids are assumed to be ASCII. Go indexes the bytes of the UTF-8 text (helpers/helpers.go:316, 321), and for an id with a multi-byte character the section, the year and the short-id panic can differ from the model.
- StudentIds.ExtractYear: the same ASCII reading of ids applies to the two characters it parses.
- Ledger.FetchAssignmentsByTime: the length of a line is not computed from its text. A line over bufio.Scanner's 64 KiB limit is given as `TooLong`, and it fails this fetch and every later one, at any target time, because scanning never gets past it.
- Ledger.RunLogFetched: the run's line is taken to be read back whole. In Go a line over 64 KiB, which one run writes once it seats about 14 full 8x3 rooms (a seat object is about 100 bytes), is read as `TooLong` instead, and the fetch fails.
- Ledger.RunLookup: the round trip holds only while the run's line is under 64 KiB. Above that, the lookup of every student at every time reports the failed fetch instead of a room.
- Ledger.WholeSecond: years outside 0..9999, which RFC 3339 formatting cannot write back, are not modelled.
- RFC 3339 and duration text are not modelled. Parsing the request's time and duration is a parameter (`Option<Instant>`, `Option<Duration>`). The formatted exam time and duration written to the log are parameters too (`toeText`, `doeText`). Of the formatting, only its cut of the exam time to whole seconds is modelled, as `Ledger.WholeSecond`, since the log's time field is read back and compared as an instant.
- `GenerateTestData` is not part of this model. The catalog of blocks and classes is a parameter of the handler.
- Selection.AssignRoomsForExams: `ShuffleStudents` uses a random generator. It is a function parameter `shuffle`, so the model does not state that a shuffle is a per-branch permutation.
- The per-room tallies of years, sections and student counts are dead code. Only their panic on an id shorter than three characters is modelled, as the allocator's `aborted` result.
- Allocator.GenerateExamAssignments: the Go function updates the caller's `students` map in place. The model returns what is left as `queuesAfter`.
- Allocator.GenerateExamAssignments: the logging call at its end is modelled apart, as `Ledger.LogRecord`. The error printed when logging fails is not modelled. So the model returns normally on a run that visited no room, where the Go function, and through it `Selection.AssignRoomsForExams`, panics at helpers/helpers.go:43 (see Findings).
- Room rows and columns are natural numbers. Negative dimensions and Go's int overflow are not modelled.
- `GeneratePDF` and the other handlers are outside this model.
- Three behaviours of the code are worth noting:
  - An id shorter than three characters makes `extractYear`/`extractSection` index out of range, so the allocator panics in the room that would seat it; the model reports this as the allocator's `aborted` result.
  - In the two-branch policy the left-seat search does not wrap around. When it starts at an exhausted branch at the end of the order (`Seating.TwoBranchRoomStopsEarly`), or after a right-seat miss has left the cursor past the end (`Seating.TwoBranchRightMissStops`), the next bench ends the room although benches and students remain.
  - A branch named "" is treated as "no branch found" in the one-branch policy.

## Findings

| source | as written | input that shows it | evidently intended | confidence | as-written member | corrected member |
|---|---|---|---|---|---|---|
| helpers/helpers.go:43 | the log line's `room` field reads `assignments[0]`, which fails with an index out of range when the run visited no room | a request none of whose blocks is in the catalog, or none of whose branches and years select a student: the allocator visits no room | a run that visited no room is still logged, with an empty room list | not executed | Ledger.LogRecordAsWritten, Ledger.EmptyRunPanics, Ledger.NoRoomVisitedPanics | Ledger.LogRecord, with Ledger.RunLogFetched and Ledger.RunLookup |

=== FILE: allocator.dfy ===
/**
 * GenerateExamAssignments and the loops it is made of, as methods over the
 * caller's queues and the counters kept beside them. Each method is proved to
 * compute exactly the reference pass of module Seating, so every property
 * proved there holds of what the allocator produces.
 */
module Allocator {
  import opened Domain
  import opened BenchLayout
  import opened Queues
  import opened Seating

  /** Every queued id is long enough for a year and a section to be read from it. */
  predicate WellFormedIds(queues: Cohorts)
  {
    forall b, x :: b in queues && x in queues[b] ==> |x| >= 3
  }

  /** Some seat holds an id too short for extractYear and extractSection. */
  predicate HasShortId(seats: seq<Seat>)
  {
    exists k :: 0 <= k < |seats| && |seats[k].studentId| < 3
  }

  /**
   * The branch search of a one-branch room: the first branch of the order
   * whose counter is positive, "" when there is none.
   */
  method PickBranch(branches: seq<string>, remaining: map<string, int>, ghost queues: Cohorts)
    returns (current: string)
    requires Counted(queues, remaining)
    ensures current == CurrentBranch(branches, queues)
  {
    current := "";
    for i := 0 to |branches|
      invariant NextSupplied(branches, queues, i) == NextSupplied(branches, queues, 0)
      invariant current == ""
    {
      CountedSupply(queues, remaining, branches[i]);
      if Count(remaining, branches[i]) > 0 {
        current := branches[i];
        break;
      }
    }
  }

  /** The cursor skip of the two-branch policy: past every branch whose counter is zero. */
  method SkipExhausted(order: seq<string>, remaining: map<string, int>, from: nat, ghost queues: Cohorts)
    returns (i: nat)
    requires from <= |order| && Counted(queues, remaining)
    ensures i == NextSupplied(order, queues, from)
  {
    i := from;
    while i < |order| && Count(remaining, order[i]) == 0
      invariant from <= i <= |order|
      invariant NextSupplied(order, queues, i) == NextSupplied(order, queues, from)
    {
      CountedSupply(queues, remaining, order[i]);
      i := i + 1;
    }
    if i < |order| {
      CountedSupply(queues, remaining, order[i]);
    }
  }

  /** Pop the head of a branch's queue and decrement its counter. */
  method Pop(queues: Cohorts, remaining: map<string, int>, branch: string)
    returns (studentId: string, queuesOut: Cohorts, remainingOut: map<string, int>)
    requires Counted(queues, remaining) && Count(remaining, branch) > 0
    ensures branch in queues && |queues[branch]| > 0
    ensures studentId == queues[branch][0]
    ensures queuesOut == queues[branch := queues[branch][1..]]
    ensures Counted(queuesOut, remainingOut)
  {
    studentId := queues[branch][0];
    queuesOut := queues[branch := queues[branch][1..]];
    remainingOut := remaining[branch := remaining[branch] - 1];
  }

  /**
   * A one-branch room part way through: `seats` hold the first |seats| ids
   * of the branch's queue, each at its place in the filling order and none
   * too short, and `queuesNow` is `queues` with those ids popped.
   */
  ghost predicate OneBranchSoFar(room: Room, rowWise: bool, branch: string, queues: Cohorts, seats: seq<Seat>,
                                 queuesNow: Cohorts, toe: Instant, doe: Duration)
  {
    var q := Queue(queues, branch);
    && |seats| <= |q| && |seats| <= SeatsIn(room)
    && queuesNow == (if branch in queues then queues[branch := q[|seats|..]] else queues)
    && (forall k :: 0 <= k < |seats| ==> seats[k] == SeatAt(room, rowWise, k, q[k], toe, doe))
    && (forall k :: 0 <= k < |seats| ==> |q[k]| >= 3)
  }

  /**
   * One seat of a one-branch bench: pop the branch's head onto side `side`
   * of the bench at `cell`, aborting when the id is too short.
   */
  method SeatNext(room: Room, rowWise: bool, branch: string, ghost queues: Cohorts, queuesNow: Cohorts,
                  remainingNow: map<string, int>, seats: seq<Seat>, cell: Cell, side: Side, toe: Instant, doe: Duration)
    returns (aborted: bool, seatsOut: seq<Seat>, queuesOut: Cohorts, remainingOut: map<string, int>)
    requires Counted(queuesNow, remainingNow) && Count(remainingNow, branch) > 0
    requires OneBranchSoFar(room, rowWise, branch, queues, seats, queuesNow, toe, doe)
    requires |seats| < SeatsIn(room) && cell == BenchCell(room, rowWise, |seats| / 2)
    requires side == if |seats| % 2 == 0 then Left else Right
    ensures |seats| < |Queue(queues, branch)|
    ensures aborted <==> |Queue(queues, branch)[|seats|]| < 3
    ensures !aborted ==>
      && |seatsOut| == |seats| + 1 && Counted(queuesOut, remainingOut)
      && OneBranchSoFar(room, rowWise, branch, queues, seatsOut, queuesOut, toe, doe)
  {
    ghost var q := Queue(queues, branch);
    CountedSupply(queuesNow, remainingNow, branch);
    var studentId;
    studentId, queuesOut, remainingOut := Pop(queuesNow, remainingNow, branch);
    aborted := |studentId| < 3;
    seatsOut := seats + [Seat(studentId, cell.row, cell.column, side, toe, doe)];
    assert studentId == q[|seats|];
    assert q[|seats|..][1..] == q[|seats| + 1..];
  }

  /**
   * A one-branch room: walk the benches in numbering order and seat the
   * branch's queue heads left then right, until the benches or the queue run
   * out. It aborts, as extractYear and extractSection do, on the first seated
   * id shorter than three characters.
   */
  method SeatOneBranch(room: Room, rowWise: bool, branch: string, queues: Cohorts, remaining: map<string, int>,
                       toe: Instant, doe: Duration)
    returns (aborted: bool, seats: seq<Seat>, queuesOut: Cohorts, remainingOut: map<string, int>)
    requires Counted(queues, remaining)
    ensures aborted <==> exists k :: 0 <= k < Min(SeatsIn(room), |Queue(queues, branch)|) && |Queue(queues, branch)[k]| < 3
    ensures !aborted ==> seats == SingleBranchSeats(room, rowWise, Queue(queues, branch), toe, doe)
    ensures !aborted ==> queuesOut == (if branch in queues then queues[branch := queues[branch][|seats|..]] else queues)
    ensures !aborted ==> Counted(queuesOut, remainingOut)
  {
    ghost var q := Queue(queues, branch);
    var totalBenches := room.rows * room.columns;
    seats, queuesOut, remainingOut, aborted := [], queues, remaining, false;
    var benchIndex: nat := 0;
    while benchIndex < totalBenches && Count(remainingOut, branch) > 0
      invariant benchIndex <= totalBenches
      invariant Counted(queuesOut, remainingOut)
      invariant |seats| == Min(2 * benchIndex, |q|)
      invariant OneBranchSoFar(room, rowWise, branch, queues, seats, queuesOut, toe, doe)
      invariant !aborted
    {
      var cell := BenchCell(room, rowWise, benchIndex);
      if Count(remainingOut, branch) > 0 {
        aborted, seats, queuesOut, remainingOut :=
          SeatNext(room, rowWise, branch, queues, queuesOut, remainingOut, seats, cell, Left, toe, doe);
        if aborted {
          return;
        }
      }
      if Count(remainingOut, branch) > 0 {
        aborted, seats, queuesOut, remainingOut :=
          SeatNext(room, rowWise, branch, queues, queuesOut, remainingOut, seats, cell, Right, toe, doe);
        if aborted {
          return;
        }
      }
      benchIndex := benchIndex + 1;
    }
    CountedSupply(queuesOut, remainingOut, branch);
    SingleBranchSeatsAre(room, rowWise, q, toe, doe, seats);
  }

  /** With every counter gone, no branch has anything queued. */
  lemma NothingCounted(queues: Cohorts, remaining: map<string, int>, order: seq<string>, from: nat)
    requires Counted(queues, remaining) && |remaining| == 0 && from <= |order|
    ensures NextSupplied(order, queues, from) == |order|
  {
    assert remaining == map[];
    assert queues.Keys == {};
  }

  lemma ShortIdAppend(a: seq<Seat>, b: seq<Seat>)
    ensures HasShortId(a + b) <==> HasShortId(a) || HasShortId(b)
  {
    if HasShortId(a) {
      var k :| 0 <= k < |a| && |a[k].studentId| < 3;
      assert (a + b)[k] == a[k];
    }
    if HasShortId(b) {
      var k :| 0 <= k < |b| && |b[k].studentId| < 3;
      assert (a + b)[|a| + k] == b[k];
    }
    if HasShortId(a + b) {
      var k :| 0 <= k < |a + b| && |(a + b)[k].studentId| < 3;
      if k >= |a| {
        assert (a + b)[k] == b[k - |a|];
      } else {
        assert (a + b)[k] == a[k];
      }
    }
  }

  /**
   * The left seat of a two-branch bench: skip exhausted branches from the
   * cursor; with none left the room stops, otherwise the found branch's head
   * is popped onto the left seat (aborting when its id is too short).
   */
  method SeatLeft(room: Room, rowWise: bool, order: seq<string>, queues: Cohorts, remaining: map<string, int>,
                  cursor: nat, bench: nat, toe: Instant, doe: Duration)
    returns (stop: bool, aborted: bool, left: Seat, a: nat, queuesOut: Cohorts, remainingOut: map<string, int>)
    requires Counted(queues, remaining) && cursor <= |order| && bench < room.rows * room.columns
    ensures a == NextSupplied(order, queues, cursor)
    ensures stop <==> a == |order|
    ensures stop ==> !aborted && queuesOut == queues && remainingOut == remaining
    ensures !stop ==>
      && (var cell := BenchCell(room, rowWise, bench);
          left == Seat(queues[order[a]][0], cell.row, cell.column, Left, toe, doe))
      && queuesOut == queues[order[a] := queues[order[a]][1..]]
      && Counted(queuesOut, remainingOut)
      && (aborted <==> |left.studentId| < 3)
  {
    aborted, left, queuesOut, remainingOut := false, Seat("", 0, 0, Left, toe, doe), queues, remaining;
    a := SkipExhausted(order, remaining, cursor, queues);
    stop := a >= |order|;
    if stop {
      return;
    }
    var branchA := order[a];
    var cell := BenchCell(room, rowWise, bench);
    CountedSupply(queues, remaining, branchA);
    var studentId;
    studentId, queuesOut, remainingOut := Pop(queues, remaining, branchA);
    left := Seat(studentId, cell.row, cell.column, Left, toe, doe);
    aborted := |studentId| < 3;
  }

  /**
   * The right seat of a two-branch bench: move the cursor past the left
   * seat's position a, back to 0 only when it ran off the end, skip
   * exhausted branches, and pop the found branch's head, if any, onto the
   * right seat (aborting when its id is too short).
   */
  method SeatRight(order: seq<string>, queues: Cohorts, remaining: map<string, int>, a: nat, cell: Cell,
                   toe: Instant, doe: Duration)
    returns (found: bool, aborted: bool, right: Seat, b: nat, queuesOut: Cohorts, remainingOut: map<string, int>)
    requires Counted(queues, remaining) && a < |order|
    ensures b == NextSupplied(order, queues, if a + 1 >= |order| then 0 else a + 1)
    ensures found <==> b < |order|
    ensures !found ==> !aborted && queuesOut == queues && Counted(queuesOut, remainingOut)
    ensures found ==>
      && right == Seat(queues[order[b]][0], cell.row, cell.column, Right, toe, doe)
      && queuesOut == queues[order[b] := queues[order[b]][1..]]
      && Counted(queuesOut, remainingOut)
      && (aborted <==> |right.studentId| < 3)
  {
    aborted, right, queuesOut, remainingOut := false, Seat("", 0, 0, Right, toe, doe), queues, remaining;
    b := a + 1;
    if b >= |order| {
      b := 0;
    }
    b := SkipExhausted(order, remaining, b, queues);
    found := b < |order|;
    if found {
      var branchB := order[b];
      CountedSupply(queues, remaining, branchB);
      var studentId;
      studentId, queuesOut, remainingOut := Pop(queues, remaining, branchB);
      right := Seat(studentId, cell.row, cell.column, Right, toe, doe);
      aborted := |studentId| < 3;
    }
  }

  /**
   * One bench of a two-branch room: the left seat, then the right seat when
   * a partner branch is found; the cursor ends where the right-seat search
   * ended. The room stops when the left-seat search finds nothing.
   */
  method SeatPairBench(room: Room, rowWise: bool, order: seq<string>, queues: Cohorts, remaining: map<string, int>,
                       cursor: nat, bench: nat, toe: Instant, doe: Duration)
    returns (stop: bool, aborted: bool, benchSeats: seq<Seat>, ghost benchTags: seq<string>,
             queuesOut: Cohorts, remainingOut: map<string, int>, cursorOut: nat)
    requires Counted(queues, remaining) && cursor <= |order| && bench < room.rows * room.columns
    ensures var r := PairBench(room, rowWise, order, queues, cursor, bench, toe, doe);
      && stop == r.stop
      && (aborted <==> HasShortId(r.seats))
      && (!aborted ==>
            && benchSeats == r.seats && benchTags == r.tags && queuesOut == r.rest && cursorOut == r.cursor
            && Counted(queuesOut, remainingOut))
  {
    ghost var r := PairBench(room, rowWise, order, queues, cursor, bench, toe, doe);
    benchSeats, benchTags := [], [];
    var left, a, q1, r1;
    stop, aborted, left, a, q1, r1 := SeatLeft(room, rowWise, order, queues, remaining, cursor, bench, toe, doe);
    queuesOut, remainingOut, cursorOut := q1, r1, a;
    if stop {
      return;
    }
    if aborted {
      assert r.seats[0] == left;
      return;
    }
    var found, right, b;
    found, aborted, right, b, queuesOut, remainingOut := SeatRight(order, q1, r1, a, BenchCell(room, rowWise, bench), toe, doe);
    cursorOut := b;
    if found {
      benchSeats, benchTags := [left, right], [order[a], order[b]];
      assert r.seats == benchSeats;
      if aborted {
        assert |benchSeats[1].studentId| < 3;
      } else {
        assert !HasShortId(benchSeats) by {
          forall k | 0 <= k < 2 ensures |benchSeats[k].studentId| >= 3 {}
        }
      }
    } else {
      benchSeats, benchTags := [left], [order[a]];
      assert r.seats == benchSeats;
      assert !HasShortId(benchSeats) by {
        forall k | 0 <= k < 1 ensures |benchSeats[k].studentId| >= 3 {}
      }
    }
  }

  /**
   * Part way through a two-branch room: `seats` and `tags` are placed and the
   * pass from bench `bench`, cursor `cursor`, over `queues` completes `spec`.
   */
  ghost predicate Pending(spec: Fill, room: Room, rowWise: bool, order: seq<string>, queues: Cohorts, cursor: nat,
                          bench: nat, toe: Instant, doe: Duration, seats: seq<Seat>, tags: seq<string>)
    requires cursor <= |order|
  {
    var rest := PairFill(room, rowWise, order, queues, cursor, bench, toe, doe);
    spec == Fill(seats + rest.seats, tags + rest.tags, rest.rest)
  }

  /**
   * One iteration of the two-branch bench loop: seat bench `bench` and
   * append what it seats, or report that the room stops or aborts.
   */
  method AdvanceBench(ghost spec: Fill, room: Room, rowWise: bool, order: seq<string>, queues: Cohorts,
                      remaining: map<string, int>, cursor: nat, bench: nat, toe: Instant, doe: Duration,
                      seats: seq<Seat>, ghost tags: seq<string>)
    returns (stop: bool, aborted: bool, seatsOut: seq<Seat>, ghost tagsOut: seq<string>,
             queuesOut: Cohorts, remainingOut: map<string, int>, cursorOut: nat)
    requires Counted(queues, remaining) && cursor <= |order| && bench < room.rows * room.columns
    requires Pending(spec, room, rowWise, order, queues, cursor, bench, toe, doe, seats, tags)
    ensures stop ==> !aborted && spec == Fill(seats, tags, queues)
    ensures stop ==> seatsOut == seats && tagsOut == tags && queuesOut == queues && Counted(queuesOut, remainingOut)
    ensures aborted ==> HasShortId(spec.seats)
    ensures !stop && !aborted ==>
      && cursorOut <= |order| && Counted(queuesOut, remainingOut)
      && Pending(spec, room, rowWise, order, queuesOut, cursorOut, bench + 1, toe, doe, seatsOut, tagsOut)
      && (HasShortId(seatsOut) ==> HasShortId(seats))
  {
    PassStep(spec, room, rowWise, order, queues, cursor, bench, toe, doe, seats, tags);
    var benchSeats;
    ghost var benchTags;
    stop, aborted, benchSeats, benchTags, queuesOut, remainingOut, cursorOut :=
      SeatPairBench(room, rowWise, order, queues, remaining, cursor, bench, toe, doe);
    seatsOut, tagsOut := seats + benchSeats, tags + benchTags;
    if stop {
      PassDone(room, rowWise, order, queues, cursor, bench, toe, doe);
    } else if !aborted {
      ShortIdAppend(seats, benchSeats);
    }
  }

  /**
   * A two-branch room: bench after bench in numbering order, until the
   * benches run out or a bench's cursor finds no branch with students. The
   * cursor starts at 0 in every room and carries over from bench to bench.
   * Aborts on the first seated id shorter than three characters.
   */
  method SeatTwoBranches(room: Room, rowWise: bool, order: seq<string>, queues: Cohorts, remaining: map<string, int>,
                         toe: Instant, doe: Duration)
    returns (aborted: bool, seats: seq<Seat>, ghost tags: seq<string>, queuesOut: Cohorts, remainingOut: map<string, int>)
    requires Counted(queues, remaining)
    ensures aborted == HasShortId(PairFill(room, rowWise, order, queues, 0, 0, toe, doe).seats)
    ensures !aborted ==> PairFill(room, rowWise, order, queues, 0, 0, toe, doe) == Fill(seats, tags, queuesOut)
    ensures !aborted ==> Counted(queuesOut, remainingOut)
  {
    ghost var spec := PairFill(room, rowWise, order, queues, 0, 0, toe, doe);
    var totalBenches := room.rows * room.columns;
    seats, tags, queuesOut, remainingOut, aborted := [], [], queues, remaining, false;
    var benchIndex: nat := 0;
    var branchIndex: nat := 0;
    PendingStart(room, rowWise, order, queues, toe, doe);
    while benchIndex < totalBenches && |remainingOut| > 0
      invariant branchIndex <= |order|
      invariant Counted(queuesOut, remainingOut)
      invariant !aborted && !HasShortId(seats)
      invariant Pending(spec, room, rowWise, order, queuesOut, branchIndex, benchIndex, toe, doe, seats, tags)
      decreases totalBenches - benchIndex
    {
      var stop;
      stop, aborted, seats, tags, queuesOut, remainingOut, branchIndex :=
        AdvanceBench(spec, room, rowWise, order, queuesOut, remainingOut, branchIndex, benchIndex, toe, doe, seats, tags);
      if stop || aborted {
        return;
      }
      benchIndex := benchIndex + 1;
    }
    if benchIndex < totalBenches {
      NothingCounted(queuesOut, remainingOut, order, branchIndex);
    }
    PendingDone(spec, room, rowWise, order, queuesOut, branchIndex, benchIndex, toe, doe, seats, tags);
  }
  /**
   * One bench of the two-branch pass, seen from a state where `seats` and
   * `tags` were placed and the pass from `bench` on is still to come.
   */
  lemma PassStep(spec: Fill, room: Room, rowWise: bool, order: seq<string>, queues: Cohorts, cursor: nat, bench: nat,
                 toe: Instant, doe: Duration, seats: seq<Seat>, tags: seq<string>)
    requires cursor <= |order| && bench < room.rows * room.columns
    requires Pending(spec, room, rowWise, order, queues, cursor, bench, toe, doe, seats, tags)
    ensures var r := PairBench(room, rowWise, order, queues, cursor, bench, toe, doe);
      && (r.stop ==> spec == Fill(seats, tags, queues))
      && (!r.stop ==> Pending(spec, room, rowWise, order, r.rest, r.cursor, bench + 1, toe, doe, seats + r.seats, tags + r.tags))
      && (!r.stop && HasShortId(r.seats) ==> HasShortId(spec.seats))
  {
    PairFillUnfold(room, rowWise, order, queues, cursor, bench, toe, doe);
    var r := PairBench(room, rowWise, order, queues, cursor, bench, toe, doe);
    if !r.stop {
      var more := PairFill(room, rowWise, order, r.rest, r.cursor, bench + 1, toe, doe);
      Reassoc(spec, seats, tags, r.seats, r.tags, more);
    }
  }

  lemma Reassoc(spec: Fill, seats: seq<Seat>, tags: seq<string>, head: seq<Seat>, headTags: seq<string>, more: Fill)
    requires spec == Fill(seats + (head + more.seats), tags + (headTags + more.tags), more.rest)
    ensures spec == Fill((seats + head) + more.seats, (tags + headTags) + more.tags, more.rest)
    ensures HasShortId(head) ==> HasShortId(spec.seats)
  {
    assert (seats + head) + more.seats == seats + (head + more.seats);
    assert (tags + headTags) + more.tags == tags + (headTags + more.tags);
    ShortIdAppend(head, more.seats);
    ShortIdAppend(seats, head + more.seats);
  }

  /** Before the first bench, the whole pass is still to come. */
  lemma PendingStart(room: Room, rowWise: bool, order: seq<string>, queues: Cohorts, toe: Instant, doe: Duration)
    ensures Pending(PairFill(room, rowWise, order, queues, 0, 0, toe, doe), room, rowWise, order, queues, 0, 0, toe, doe, [], [])
  {
    var f := PairFill(room, rowWise, order, queues, 0, 0, toe, doe);
  }

  /** Once no bench is left, or the cursor finds no supplied branch, what was placed is the whole pass. */
  lemma PendingDone(spec: Fill, room: Room, rowWise: bool, order: seq<string>, queues: Cohorts, cursor: nat, bench: nat,
                    toe: Instant, doe: Duration, seats: seq<Seat>, tags: seq<string>)
    requires cursor <= |order| && Pending(spec, room, rowWise, order, queues, cursor, bench, toe, doe, seats, tags)
    requires bench < room.rows * room.columns ==> NextSupplied(order, queues, cursor) == |order|
    ensures spec == Fill(seats, tags, queues)
  {
    PassDone(room, rowWise, order, queues, cursor, bench, toe, doe);
  }

  /** A pass with no bench left, or whose cursor finds no supplied branch, seats nobody. */
  lemma PassDone(room: Room, rowWise: bool, order: seq<string>, queues: Cohorts, cursor: nat, bench: nat,
                 toe: Instant, doe: Duration)
    requires cursor <= |order|
    requires bench < room.rows * room.columns ==> NextSupplied(order, queues, cursor) == |order|
    ensures PairFill(room, rowWise, order, queues, cursor, bench, toe, doe) == Fill([], [], queues)
  {
  }

  /** A short id that a two-branch room would seat was queued before the room. */
  lemma ShortSeatQueued(room: Room, rowWise: bool, order: seq<string>, queues: Cohorts, toe: Instant, doe: Duration)
    requires HasShortId(PairFill(room, rowWise, order, queues, 0, 0, toe, doe).seats)
    ensures !WellFormedIds(queues)
  {
    var f := PairFill(room, rowWise, order, queues, 0, 0, toe, doe);
    PairFillFacts(room, rowWise, order, queues, 0, 0, toe, doe);
    DrawnIdsQueued(queues, f.rest, SeatIds(f.seats), f.tags);
    var k :| 0 <= k < |f.seats| && |f.seats[k].studentId| < 3;
  }

  /** Recording one more room keeps the run, the branch keys and the well-formedness of what is queued. */
  lemma RunStep(policy: Policy, rooms: seq<Room>, students: Cohorts, entries: seq<RoomEntry>,
                snapshots: seq<Cohorts>, tags: seq<seq<string>>, toe: Instant, doe: Duration,
                after: Cohorts, entry: RoomEntry, roomTags: seq<string>)
    requires Run(policy, rooms, students, entries, snapshots, tags, toe, doe) && |entries| < |rooms|
    requires RoomRecorded(policy, rooms[|entries|], snapshots[|entries|], after, entry, roomTags, toe, doe)
    ensures Run(policy, rooms, students, entries + [entry], snapshots + [after], tags + [roomTags], toe, doe)
    ensures after.Keys == students.Keys
    ensures WellFormedIds(students) ==> WellFormedIds(after)
  {
    RunExtend(policy, rooms, students, entries, snapshots, tags, toe, doe, after, entry, roomTags);
    QueuedBefore(policy, rooms, students, entries + [entry], snapshots + [after], tags + [roomTags], toe, doe);
  }

  /** Ids still queued during a run were queued in the students handed in. */
  lemma QueuedBefore(policy: Policy, rooms: seq<Room>, students: Cohorts, entries: seq<RoomEntry>,
                     snapshots: seq<Cohorts>, tags: seq<seq<string>>, toe: Instant, doe: Duration)
    requires Run(policy, rooms, students, entries, snapshots, tags, toe, doe)
    ensures snapshots[|entries|].Keys == students.Keys
    ensures WellFormedIds(students) ==> WellFormedIds(snapshots[|entries|])
  {
    RunDrawn(policy, rooms, students, entries, snapshots, tags, toe, doe);
    DrawnRestQueued(students, snapshots[|entries|], SeatIds(AllSeats(entries)), Flatten(tags));
  }

  /**
   * One room of GenerateExamAssignments. In one-branch mode the room is
   * given the first listed branch with students left, and when there is none
   * the run stops; in two-branch mode without single-child seating the room
   * interleaves the listed branches; any other policy leaves the room empty.
   */
  method SeatRoom(policy: Policy, room: Room, queues: Cohorts, remaining: map<string, int>, toe: Instant, doe: Duration)
    returns (stop: bool, aborted: bool, seats: seq<Seat>, ghost roomTags: seq<string>,
             queuesOut: Cohorts, remainingOut: map<string, int>)
    requires Counted(queues, remaining)
    ensures stop <==> policy.branchesPerRoom == 1 && CurrentBranch(policy.branches, queues) == ""
    ensures stop ==> !aborted
    ensures aborted <==> !stop && HasShortId(FillRoom(policy, room, queues, toe, doe).seats)
    ensures aborted ==> !WellFormedIds(queues)
    ensures !stop && !aborted ==>
      && RoomRecorded(policy, room, queues, queuesOut, RoomEntry(room.roomNumber, seats), roomTags, toe, doe)
      && Counted(queuesOut, remainingOut)
  {
    stop, aborted, seats, roomTags, queuesOut, remainingOut := false, false, [], [], queues, remaining;
    if policy.branchesPerRoom == 1 {
      var current := PickBranch(policy.branches, remaining, queues);
      if current == "" {
        stop := true;
        return;
      }
      aborted, seats, queuesOut, remainingOut := SeatOneBranch(room, policy.rowWise, current, queues, remaining, toe, doe);
      roomTags := Repeat(current, |seats|);
      SingleBranchShort(room, policy.rowWise, queues[current], toe, doe);
      if aborted {
        var k :| 0 <= k < Min(SeatsIn(room), |Queue(queues, current)|) && |Queue(queues, current)[k]| < 3;
        assert Queue(queues, current)[k] in queues[current];
      }
    } else if policy.branchesPerRoom == 2 && !policy.singleChild {
      aborted, seats, roomTags, queuesOut, remainingOut :=
        SeatTwoBranches(room, policy.rowWise, policy.branches, queues, remaining, toe, doe);
      if aborted {
        ShortSeatQueued(room, policy.rowWise, policy.branches, queues, toe, doe);
      }
    } else {
      seats, roomTags, queuesOut, remainingOut := [], [], queues, remaining;
      assert !HasShortId(FillRoom(policy, room, queues, toe, doe).seats);
    }
  }

  /** A one-branch room seats a short id exactly when one of the queue heads it takes is short. */
  lemma SingleBranchShort(room: Room, rowWise: bool, queue: seq<string>, toe: Instant, doe: Duration)
    ensures HasShortId(SingleBranchSeats(room, rowWise, queue, toe, doe))
      <==> exists k :: 0 <= k < Min(SeatsIn(room), |queue|) && |queue[k]| < 3
  {
    var seats := SingleBranchSeats(room, rowWise, queue, toe, doe);
    assert forall k :: 0 <= k < |seats| ==> seats[k].studentId == SeatIds(seats)[k] == queue[k];
  }

  /**
   * The run so far, as the room loop sees it: `entries` record the rooms
   * visited, `queues` and `remaining` are what they left.
   */
  ghost predicate RunSoFar(policy: Policy, rooms: seq<Room>, students: Cohorts, entries: seq<RoomEntry>,
                           snapshots: seq<Cohorts>, tags: seq<seq<string>>, toe: Instant, doe: Duration,
                           queues: Cohorts, remaining: map<string, int>)
  {
    && Run(policy, rooms, students, entries, snapshots, tags, toe, doe)
    && snapshots[|entries|] == queues
    && Counted(queues, remaining) && queues.Keys == students.Keys
    && (WellFormedIds(students) ==> WellFormedIds(queues))
  }

  /** One iteration of the room loop: seat room `rooms[|entries|]` and record it. */
  method VisitRoom(policy: Policy, rooms: seq<Room>, students: Cohorts, ghost entries: seq<RoomEntry>,
                   ghost snapshots: seq<Cohorts>, ghost tags: seq<seq<string>>, toe: Instant, doe: Duration,
                   roomIndex: nat, queues: Cohorts, remaining: map<string, int>)
    returns (stop: bool, aborted: bool, entry: RoomEntry, ghost roomTags: seq<string>,
             queuesOut: Cohorts, remainingOut: map<string, int>)
    requires roomIndex == |entries| < |rooms|
    requires RunSoFar(policy, rooms, students, entries, snapshots, tags, toe, doe, queues, remaining)
    ensures stop <==> policy.branchesPerRoom == 1 && CurrentBranch(policy.branches, queues) == ""
    ensures stop ==> !aborted
    ensures aborted <==> !stop && HasShortId(FillRoom(policy, rooms[roomIndex], queues, toe, doe).seats)
    ensures aborted ==> !WellFormedIds(students)
    ensures !stop && !aborted ==> entry.assignments == FillRoom(policy, rooms[roomIndex], queues, toe, doe).seats
    ensures !stop && !aborted ==>
      RunSoFar(policy, rooms, students, entries + [entry], snapshots + [queuesOut], tags + [roomTags], toe, doe,
               queuesOut, remainingOut)
  {
    var room := rooms[roomIndex];
    var seats;
    stop, aborted, seats, roomTags, queuesOut, remainingOut := SeatRoom(policy, room, queues, remaining, toe, doe);
    entry := RoomEntry(room.roomNumber, seats);
    if !stop && !aborted {
      RunStep(policy, rooms, students, entries, snapshots, tags, toe, doe, queuesOut, entry, roomTags);
    }
  }

  /**
   * GenerateExamAssignments: visit the rooms in order while rooms remain and
   * the counter map is non-empty, seat each room under the policy and record
   * it under its room number, popping seated students off `students`. In
   * one-branch mode the loop ends at the first room for which no listed
   * branch has students left. The run aborts, as the Go code panics, when it
   * reaches a student id shorter than three characters. `queuesAfter` is what
   * is left of the caller's map, which the Go code updates in place.
   */
  method GenerateExamAssignments(rooms: seq<Room>, students: Cohorts, policy: Policy, toe: Instant, doe: Duration)
    returns (aborted: bool, entries: seq<RoomEntry>, queuesAfter: Cohorts,
             ghost snapshots: seq<Cohorts>, ghost tags: seq<seq<string>>)
    ensures aborted ==> !WellFormedIds(students)
    ensures aborted ==> Aborts(policy, rooms, students, entries, snapshots, tags, toe, doe)
    ensures !aborted ==> Completed(policy, rooms, students, entries, snapshots, tags, toe, doe)
    ensures !aborted ==> snapshots[|entries|] == queuesAfter
    ensures !aborted && |students| == 0 ==> entries == []
    ensures !aborted && |students| > 0 && policy.branchesPerRoom != 1 ==> |entries| == |rooms|
    ensures !aborted && policy.branchesPerRoom == 1 && |entries| < |rooms| ==>
      CurrentBranch(policy.branches, queuesAfter) == ""
  {
    var remaining := map b | b in students :: |students[b]|;
    var queues := students;
    entries, snapshots, tags, aborted, queuesAfter := [], [students], [], false, students;
    assert remaining.Keys == students.Keys;
    var roomIndex := 0;
    while roomIndex < |rooms| && |remaining| > 0
      invariant roomIndex == |entries| <= |rooms|
      invariant RunSoFar(policy, rooms, students, entries, snapshots, tags, toe, doe, queues, remaining)
      invariant |remaining| == |students| && (|students| == 0 ==> entries == [])
      invariant !aborted && !HasShortId(AllSeats(entries))
    {
      var stop, entry, queues', remaining';
      ghost var roomTags;
      stop, aborted, entry, roomTags, queues', remaining' :=
        VisitRoom(policy, rooms, students, entries, snapshots, tags, toe, doe, roomIndex, queues, remaining);
      if stop {
        break;
      }
      if aborted {
        return;
      }
      CleanStep(entries, entry);
      entries, snapshots, tags := entries + [entry], snapshots + [queues'], tags + [roomTags];
      queues, remaining := queues', remaining';
      assert remaining.Keys == students.Keys;
      roomIndex := roomIndex + 1;
    }
    queuesAfter := queues;
    if |remaining| == 0 {
      assert queues == map[];
    }
  }

  /**
   * A run that ended where GenerateExamAssignments returns normally: no
   * seated id is short, no room is visited when there are no students, and
   * when rooms remain, one-branch mode found no listed branch with students.
   */
  predicate Completed(policy: Policy, rooms: seq<Room>, students: Cohorts, entries: seq<RoomEntry>,
                      snapshots: seq<Cohorts>, tags: seq<seq<string>>, toe: Instant, doe: Duration)
  {
    && Run(policy, rooms, students, entries, snapshots, tags, toe, doe)
    && !HasShortId(AllSeats(entries))
    && (|students| == 0 ==> entries == [])
    && (|students| > 0 && |entries| < |rooms| ==>
          policy.branchesPerRoom == 1 && CurrentBranch(policy.branches, snapshots[|entries|]) == "")
  }

  /**
   * A run that reaches a room, with students left and a branch to seat,
   * whose pass seats an id too short for extractYear and extractSection:
   * GenerateExamAssignments panics in that room.
   */
  predicate Aborts(policy: Policy, rooms: seq<Room>, students: Cohorts, entries: seq<RoomEntry>,
                   snapshots: seq<Cohorts>, tags: seq<seq<string>>, toe: Instant, doe: Duration)
  {
    && Run(policy, rooms, students, entries, snapshots, tags, toe, doe)
    && |students| > 0 && |entries| < |rooms|
    && !(policy.branchesPerRoom == 1 && CurrentBranch(policy.branches, snapshots[|entries|]) == "")
    && HasShortId(FillRoom(policy, rooms[|entries|], snapshots[|entries|], toe, doe).seats)
  }

  /** A room whose seats hold no short id keeps the run free of short ids. */
  lemma CleanStep(entries: seq<RoomEntry>, entry: RoomEntry)
    requires !HasShortId(AllSeats(entries)) && !HasShortId(entry.assignments)
    ensures !HasShortId(AllSeats(entries + [entry]))
  {
    assert (entries + [entry])[..|entries|] == entries;
    ShortIdAppend(AllSeats(entries), entry.assignments);
  }

  /** A short id in one room of a run is a short id of the run. */
  lemma {:induction false} RunShortAt(entries: seq<RoomEntry>, i: nat)
    requires i < |entries| && HasShortId(entries[i].assignments)
    ensures HasShortId(AllSeats(entries))
  {
    var m := |entries| - 1;
    ShortIdAppend(AllSeats(entries[..m]), entries[m].assignments);
    if i < m {
      assert entries[..m][i] == entries[i];
      RunShortAt(entries[..m], i);
    }
  }

  /** In one-branch mode no room of a run was visited with every listed branch exhausted. */
  lemma VisitedNotStopped(policy: Policy, rooms: seq<Room>, students: Cohorts, entries: seq<RoomEntry>,
                          snapshots: seq<Cohorts>, tags: seq<seq<string>>, toe: Instant, doe: Duration, i: nat)
    requires Run(policy, rooms, students, entries, snapshots, tags, toe, doe) && i < |entries|
    ensures !(policy.branchesPerRoom == 1 && CurrentBranch(policy.branches, snapshots[i]) == "")
    ensures entries[i].assignments == FillRoom(policy, rooms[i], snapshots[i], toe, doe).seats
  {
    RunRoomAt(policy, rooms, students, entries, snapshots, tags, toe, doe, i);
  }

  /** The allocation has one normal outcome: two completed runs over the same input are the same run. */
  lemma CompletedUnique(policy: Policy, rooms: seq<Room>, students: Cohorts, toe: Instant, doe: Duration,
                        e1: seq<RoomEntry>, s1: seq<Cohorts>, t1: seq<seq<string>>,
                        e2: seq<RoomEntry>, s2: seq<Cohorts>, t2: seq<seq<string>>)
    requires Completed(policy, rooms, students, e1, s1, t1, toe, doe)
    requires Completed(policy, rooms, students, e2, s2, t2, toe, doe)
    ensures e1 == e2 && s1 == s2
  {
    if |e1| < |e2| {
      RunPrefix(policy, rooms, students, toe, doe, e1, s1, t1, e2, s2, t2);
      VisitedNotStopped(policy, rooms, students, e2, s2, t2, toe, doe, |e1|);
    } else if |e2| < |e1| {
      RunPrefix(policy, rooms, students, toe, doe, e2, s2, t2, e1, s1, t1);
      VisitedNotStopped(policy, rooms, students, e1, s1, t1, toe, doe, |e2|);
    } else {
      RunPrefix(policy, rooms, students, toe, doe, e1, s1, t1, e2, s2, t2);
    }
  }

  /**
   * An input either makes the allocation panic or lets it complete, never
   * both: a run that seats a short id in its next room is not a prefix of a
   * completed run, and no completed run stops before it.
   */
  lemma AbortExcludesCompletion(policy: Policy, rooms: seq<Room>, students: Cohorts, toe: Instant, doe: Duration,
                                e1: seq<RoomEntry>, s1: seq<Cohorts>, t1: seq<seq<string>>,
                                e2: seq<RoomEntry>, s2: seq<Cohorts>, t2: seq<seq<string>>)
    requires Aborts(policy, rooms, students, e1, s1, t1, toe, doe)
    ensures !Completed(policy, rooms, students, e2, s2, t2, toe, doe)
  {
    if Run(policy, rooms, students, e2, s2, t2, toe, doe) && |e1| < |e2| {
      RunPrefix(policy, rooms, students, toe, doe, e1, s1, t1, e2, s2, t2);
      assert s1[|e1|] == s2[|e1|];
      VisitedNotStopped(policy, rooms, students, e2, s2, t2, toe, doe, |e1|);
      RunShortAt(e2, |e1|);
    } else if Run(policy, rooms, students, e2, s2, t2, toe, doe) {
      RunPrefix(policy, rooms, students, toe, doe, e2, s2, t2, e1, s1, t1);
      assert s2[|e2|] == s1[|e2|];
      if |e2| < |e1| {
        VisitedNotStopped(policy, rooms, students, e1, s1, t1, toe, doe, |e2|);
      }
    }
  }
}

=== FILE: bench_layout.dfy ===
/**
 * Bench numbering inside a room. Benches are numbered 0 .. rows*columns-1 and
 * placed on the grid row by row or column by column; every bench has a left
 * and a right seat.
 */
module BenchLayout {
  import opened Domain

  /** A bench position on the room grid, 1-based. */
  datatype Cell = Cell(row: int, column: int)

  predicate InGrid(room: Room, c: Cell)
  {
    1 <= c.row <= room.rows && 1 <= c.column <= room.columns
  }

  /** The bench number a grid position carries under the chosen numbering. */
  function BenchIndex(room: Room, rowWise: bool, c: Cell): int
  {
    if rowWise then (c.row - 1) * room.columns + (c.column - 1)
    else (c.column - 1) * room.rows + (c.row - 1)
  }

  lemma DivBelow(b: nat, outer: nat, inner: nat)
    requires b < outer * inner
    ensures inner > 0 && b / inner < outer
  {
    var q := b / inner;
    assert inner * q <= b;
    assert inner * (outer - q) > 0;
  }

  lemma MulMonotone(k: nat, x: nat, y: nat)
    requires x <= y
    ensures k * x <= k * y
  {
    assert k * y == k * x + k * (y - x);
  }

  /**
   * The grid position of bench number `bench`: row-wise numbering walks the
   * columns of a row first, column-wise numbering the rows of a column first.
   * The position lies on the grid and numbers back to the same bench.
   */
  function BenchCell(room: Room, rowWise: bool, bench: nat): (c: Cell)
    requires bench < room.rows * room.columns
    ensures InGrid(room, c)
    ensures BenchIndex(room, rowWise, c) == bench
  {
    DivBelow(bench, room.rows, room.columns);
    assert room.rows * room.columns == room.columns * room.rows;
    DivBelow(bench, room.columns, room.rows);
    if rowWise then Cell(bench / room.columns + 1, bench % room.columns + 1)
    else Cell(bench % room.rows + 1, bench / room.rows + 1)
  }

  /** Every position on the grid carries a bench number in range. */
  lemma InGridBenchRange(room: Room, rowWise: bool, c: Cell)
    requires InGrid(room, c)
    ensures 0 <= BenchIndex(room, rowWise, c) < room.rows * room.columns
  {
    if rowWise {
      MulMonotone(room.columns, c.row - 1, room.rows - 1);
      assert room.columns * (room.rows - 1) == room.rows * room.columns - room.columns;
    } else {
      MulMonotone(room.rows, c.column - 1, room.columns - 1);
      assert room.rows * (room.columns - 1) == room.rows * room.columns - room.rows;
    }
  }

  /** Two different benches of a room never share a grid position. */
  lemma BenchCellInjective(room: Room, rowWise: bool, b1: nat, b2: nat)
    requires b1 < room.rows * room.columns && b2 < room.rows * room.columns
    requires b1 != b2
    ensures BenchCell(room, rowWise, b1) != BenchCell(room, rowWise, b2)
  {
  }

  function SeatCell(s: Seat): Cell { Cell(s.row, s.column) }

  function SideRank(side: Side): nat { if side == Left then 0 else 1 }

  /** The seat's place in the filling order: bench by bench, left before right. */
  function Slot(room: Room, rowWise: bool, s: Seat): int
  {
    2 * BenchIndex(room, rowWise, SeatCell(s)) + SideRank(s.side)
  }

  /** `s` is the seat filled right after `prev`. */
  predicate NextInOrder(room: Room, rowWise: bool, prev: Seat, s: Seat)
  {
    if s.side == Left then
      BenchIndex(room, rowWise, SeatCell(s)) == BenchIndex(room, rowWise, SeatCell(prev)) + 1
    else
      prev.side == Left && SeatCell(s) == SeatCell(prev)
  }

  /**
   * Seats fill benches in numbering order starting at bench `first`: every
   * bench is opened with its left seat, a right seat only follows the left
   * seat of the same bench, and no bench is skipped.
   */
  predicate FilledFrom(seats: seq<Seat>, room: Room, rowWise: bool, first: int)
  {
    && (forall k :: 0 <= k < |seats| ==> InGrid(room, SeatCell(seats[k])))
    && (|seats| > 0 ==> seats[0].side == Left && BenchIndex(room, rowWise, SeatCell(seats[0])) == first)
    && (forall k :: 0 < k < |seats| ==> NextInOrder(room, rowWise, seats[k - 1], seats[k]))
  }

  /** A room's assignment list fills its benches in numbering order from bench 0. */
  predicate FilledInOrder(seats: seq<Seat>, room: Room, rowWise: bool)
  {
    FilledFrom(seats, room, rowWise, 0)
  }

  lemma {:induction false} SlotsGrow(seats: seq<Seat>, room: Room, rowWise: bool, i: nat, j: nat)
    requires FilledInOrder(seats, room, rowWise)
    requires i <= j < |seats|
    ensures Slot(room, rowWise, seats[j]) >= Slot(room, rowWise, seats[i]) + (j - i)
    decreases j - i
  {
    if i < j {
      SlotsGrow(seats, room, rowWise, i, j - 1);
    }
  }

  /** Seats of a room come in strictly increasing filling order, the k-th at slot k or later. */
  lemma SlotsIncrease(seats: seq<Seat>, room: Room, rowWise: bool)
    requires FilledInOrder(seats, room, rowWise)
    ensures forall i, j :: 0 <= i < j < |seats| ==> Slot(room, rowWise, seats[i]) < Slot(room, rowWise, seats[j])
    ensures forall k :: 0 <= k < |seats| ==> Slot(room, rowWise, seats[k]) >= k
  {
    forall i, j | 0 <= i < j < |seats|
      ensures Slot(room, rowWise, seats[i]) < Slot(room, rowWise, seats[j])
    {
      SlotsGrow(seats, room, rowWise, i, j);
    }
    forall k | 0 <= k < |seats|
      ensures Slot(room, rowWise, seats[k]) >= k
    {
      SlotsGrow(seats, room, rowWise, 0, k);
    }
  }

  /** Within one room no (row, column, side) triple is occupied twice. */
  lemma SeatsDistinct(seats: seq<Seat>, room: Room, rowWise: bool)
    requires FilledInOrder(seats, room, rowWise)
    ensures forall i, j :: 0 <= i < j < |seats| ==>
      SeatCell(seats[i]) != SeatCell(seats[j]) || seats[i].side != seats[j].side
  {
    SlotsIncrease(seats, room, rowWise);
  }

  /** No bench holds more than two students. */
  lemma AtMostTwoPerBench(seats: seq<Seat>, room: Room, rowWise: bool)
    requires FilledInOrder(seats, room, rowWise)
    ensures forall i, j, l :: 0 <= i < j < l < |seats| ==>
      !(SeatCell(seats[i]) == SeatCell(seats[j]) == SeatCell(seats[l]))
  {
    SeatsDistinct(seats, room, rowWise);
  }

  /** A room seats at most two students per bench, 2 * rows * columns in all. */
  lemma RoomSeatBound(seats: seq<Seat>, room: Room, rowWise: bool)
    requires FilledInOrder(seats, room, rowWise)
    ensures |seats| <= 2 * (room.rows * room.columns)
  {
    if |seats| > 0 {
      var last := |seats| - 1;
      SlotsIncrease(seats, room, rowWise);
      InGridBenchRange(room, rowWise, SeatCell(seats[last]));
    }
  }
}

=== FILE: domain.dfy ===
/**
 * The values the seat-allocation engine works on: rooms and classes of the
 * catalog, the request policy, and the seat records it produces.
 */
module Domain {

  datatype Option<+T> = None | Some(value: T)

  /** An instant on the time line (Go's time.Time compared with Equal). */
  datatype Instant = Instant(unixNanos: int)

  /** An exam duration (Go's time.Duration, a count of nanoseconds). */
  datatype Duration = Duration(nanos: int)

  /** A room of a block: only the room number and the grid matter to the allocator. */
  datatype Room = Room(
    id: nat,
    roomType: string,
    capacity: int,
    roomNumber: string,
    assignedClass: string,
    rows: nat,
    columns: nat)

  /** A class of a branch, with its admission year and its ordered student ids. */
  datatype Class = Class(
    id: nat,
    className: string,
    year: int,
    branch: string,
    studentIds: seq<string>)

  /** The request parameters that drive selection and allocation. */
  datatype Policy = Policy(
    blocks: seq<string>,
    branches: seq<string>,
    years: seq<int>,
    singleChild: bool,
    branchesPerRoom: int,
    rowWise: bool,
    internalShuffle: bool)

  datatype Side = Left | Right

  /** One seated student: the record appended to a room's assignment list. */
  datatype Seat = Seat(
    studentId: string,
    row: int,
    column: int,
    side: Side,
    toe: Instant,
    doe: Duration)

  /** What the allocator appends for every room it visits. */
  datatype RoomEntry = RoomEntry(room: string, assignments: seq<Seat>)

  function SeatIds(seats: seq<Seat>): (ids: seq<string>)
    ensures |ids| == |seats|
    ensures forall k :: 0 <= k < |seats| ==> ids[k] == seats[k].studentId
  {
    if seats == [] then [] else SeatIds(seats[..|seats| - 1]) + [seats[|seats| - 1].studentId]
  }

  /** The ids of two runs of seats, one after the other. */
  lemma SeatIdsAppend(a: seq<Seat>, b: seq<Seat>)
    ensures SeatIds(a + b) == SeatIds(a) + SeatIds(b)
  {
    var l, r := SeatIds(a + b), SeatIds(a) + SeatIds(b);
    assert |l| == |r|;
    forall k | 0 <= k < |l|
      ensures l[k] == r[k]
    {
      if k < |a| {
        assert (a + b)[k] == a[k];
      } else {
        assert (a + b)[k] == b[k - |a|];
      }
    }
  }
}

=== FILE: ledger.dfy ===
/**
 * The exam ledger: the in-memory list of (student, room, time) records and its
 * two queries, the append-only log file the allocator writes one line to per
 * run, the time filter that reads that log back, and the student lookup built
 * on it. The file and JSON layers are replaced by already-decoded values.
 */
module Ledger {
  import opened Domain
  import opened StudentIds
  import opened Queues
  import opened Seating
  import opened Allocator

  // ----- In-memory ledger -----

  datatype ExamAssignment = ExamAssignment(studentId: string, roomNumber: string, toe: Instant)

  predicate Matches(a: ExamAssignment, studentId: string, toe: Instant)
  {
    a.studentId == studentId && a.toe == toe
  }

  /**
   * FindStudentAssignment: the room of the first record with the student's id
   * and the exam time, or "" when there is none.
   */
  method FindStudentAssignment(assignments: seq<ExamAssignment>, studentId: string, toe: Instant) returns (room: string)
    ensures (forall k :: 0 <= k < |assignments| ==> !Matches(assignments[k], studentId, toe)) ==> room == ""
    ensures forall k :: 0 <= k < |assignments| && Matches(assignments[k], studentId, toe)
                        && (forall l :: 0 <= l < k ==> !Matches(assignments[l], studentId, toe))
                        ==> room == assignments[k].roomNumber
  {
    var i := 0;
    while i < |assignments|
      invariant i <= |assignments|
      invariant forall l :: 0 <= l < i ==> !Matches(assignments[l], studentId, toe)
    {
      if assignments[i].studentId == studentId && assignments[i].toe == toe {
        return assignments[i].roomNumber;
      }
      i := i + 1;
    }
    return "";
  }

  /** The records held at exam time `toe`, in ledger order. */
  function ByToe(assignments: seq<ExamAssignment>, toe: Instant): (kept: seq<ExamAssignment>)
    ensures |kept| <= |assignments|
    ensures forall x :: x in kept <==> x in assignments && x.toe == toe
  {
    if assignments == [] then []
    else
      var n := |assignments| - 1;
      assert assignments == assignments[..n] + [assignments[n]];
      ByToe(assignments[..n], toe) + (if assignments[n].toe == toe then [assignments[n]] else [])
  }

  /** FilterAssignmentsByTOE: a fresh list of the records held at `toe`. */
  method FilterAssignmentsByToe(assignments: seq<ExamAssignment>, toe: Instant) returns (filtered: seq<ExamAssignment>)
    ensures filtered == ByToe(assignments, toe)
  {
    filtered := [];
    var i := 0;
    while i < |assignments|
      invariant i <= |assignments|
      invariant filtered == ByToe(assignments[..i], toe)
    {
      assert assignments[..i + 1][..i] == assignments[..i];
      if assignments[i].toe == toe {
        filtered := filtered + [assignments[i]];
      }
      i := i + 1;
    }
    assert assignments[..i] == assignments;
  }

  /** The filter keeps order: filtering a concatenation concatenates the filtered parts. */
  lemma {:induction false} ByToeAppend(a: seq<ExamAssignment>, b: seq<ExamAssignment>, toe: Instant)
    ensures ByToe(a + b, toe) == ByToe(a, toe) + ByToe(b, toe)
    decreases |b|
  {
    if b == [] {
      assert a + b == a;
    } else {
      var n := |b| - 1;
      var ab := a + b;
      assert ab[..|ab| - 1] == a + b[..n];
      assert ab[|ab| - 1] == b[n];
      ByToeAppend(a, b[..n], toe);
      var front, middle := ByToe(a, toe), ByToe(b[..n], toe);
      var last := if b[n].toe == toe then [b[n]] else [];
      assert (front + middle) + last == front + (middle + last);
    }
  }

  /** Filtering twice by the same time is filtering once. */
  lemma {:induction false} ByToeIdempotent(assignments: seq<ExamAssignment>, toe: Instant)
    ensures ByToe(ByToe(assignments, toe), toe) == ByToe(assignments, toe)
  {
    if assignments != [] {
      var n := |assignments| - 1;
      var tail := if assignments[n].toe == toe then [assignments[n]] else [];
      ByToeIdempotent(assignments[..n], toe);
      ByToeAppend(ByToe(assignments[..n], toe), tail, toe);
      assert ByToe(tail, toe) == tail by {
        if tail != [] {
          assert tail[..0] == [];
        }
      }
    }
  }

  // ----- The log file, decoded -----

  /**
   * The "toe" field of a seat object: absent, present but not a string
   * (null, a number, ...), or a string.
   */
  datatype TimeField = NoTime | NotText | Text(text: string)

  /**
   * A seat object of a log line. For the id, row, column, side and duration
   * None stands for a field that is missing or of another JSON type.
   */
  datatype LoggedSeat = LoggedSeat(
    studentId: Option<string>,
    row: Option<int>,
    column: Option<int>,
    side: Option<string>,
    toe: TimeField,
    doe: Option<string>)

  /**
   * A room object of a log line: its room number and its list of seats (None
   * when the list is missing or not a list; an element that is not an object
   * is None).
   */
  datatype LoggedRoom = LoggedRoom(room: string, seats: Option<seq<Option<LoggedSeat>>>)

  /**
   * One decoded log line: its exam time (None when missing or not RFC 3339
   * text), its leading room number and its list of room objects (None when
   * missing or not a list; an element that is not an object is None).
   */
  datatype LogEntry = LogEntry(time: Option<Instant>, room: Option<string>, rooms: Option<seq<Option<LoggedRoom>>>)

  /**
   * A line of the log file: not JSON; longer than the 64 KiB token limit of
   * Go's default bufio.Scanner, where scanning stops and the scanner reports
   * ErrTooLong; or a decoded entry.
   */
  datatype Line = Malformed | TooLong | Decoded(entry: LogEntry)

  /** The elements of a decoded JSON list that are objects, in order. */
  function Objects(items: seq<Option<LoggedRoom>>): (objs: seq<LoggedRoom>)
    ensures |objs| <= |items|
  {
    if items == [] then []
    else
      var n := |items| - 1;
      Objects(items[..n]) + (if items[n].Some? then [items[n].value] else [])
  }

  /** The objects kept are exactly the object elements of the list. */
  lemma {:induction false} ObjectsMember(items: seq<Option<LoggedRoom>>, x: LoggedRoom)
    ensures x in Objects(items) <==> Some(x) in items
  {
    if items != [] {
      var n := |items| - 1;
      assert items == items[..n] + [items[n]];
      ObjectsMember(items[..n], x);
    }
  }

  lemma {:induction false} ObjectsSnoc(items: seq<Option<LoggedRoom>>, x: Option<LoggedRoom>)
    ensures Objects(items + [x]) == Objects(items) + (if x.Some? then [x.value] else [])
  {
    assert (items + [x])[..|items|] == items;
  }

  /** Keeping the objects of a concatenation keeps the objects of each part, in order. */
  lemma {:induction false} ObjectsAppend(a: seq<Option<LoggedRoom>>, b: seq<Option<LoggedRoom>>)
    ensures Objects(a + b) == Objects(a) + Objects(b)
    decreases |b|
  {
    if b == [] {
      assert a + b == a;
    } else {
      var n := |b| - 1;
      assert a + b == (a + b[..n]) + [b[n]];
      assert b == b[..n] + [b[n]];
      ObjectsSnoc(a + b[..n], b[n]);
      ObjectsSnoc(b[..n], b[n]);
      ObjectsAppend(a, b[..n]);
    }
  }

  /** The room list a line offers to a fetch at `target`: empty unless the line is logged at `target`. */
  function LineItems(line: Line, target: Instant): seq<Option<LoggedRoom>>
  {
    if line.Decoded? && line.entry.time == Some(target) && line.entry.rooms.Some? then line.entry.rooms.value
    else []
  }

  /** The room lists of the lines logged at `target`, one after the other, in file order. */
  function MatchingItems(lines: seq<Line>, target: Instant): seq<Option<LoggedRoom>>
  {
    if lines == [] then []
    else MatchingItems(lines[..|lines| - 1], target) + LineItems(lines[|lines| - 1], target)
  }

  /** The room objects of every line logged at `target`, in file order. */
  function Collected(lines: seq<Line>, target: Instant): seq<LoggedRoom>
  {
    Objects(MatchingItems(lines, target))
  }

  datatype Fetch = Unreadable | Fetched(rooms: seq<LoggedRoom>)

  /**
   * The scan of FetchAssignmentsByTime: a line that is not JSON, or one too
   * long for the scanner, fails the whole fetch; otherwise the room objects of the lines whose time equals `target`
   * are appended in file order.
   */
  method FetchAssignmentsByTime(lines: seq<Line>, target: Instant) returns (r: Fetch)
    ensures r.Unreadable? <==> exists k :: 0 <= k < |lines| && !lines[k].Decoded?
    ensures r.Fetched? ==> r.rooms == Collected(lines, target)
  {
    var rooms: seq<LoggedRoom> := [];
    var i := 0;
    while i < |lines|
      invariant i <= |lines|
      invariant forall k :: 0 <= k < i ==> lines[k].Decoded?
      invariant rooms == Collected(lines[..i], target)
    {
      if !lines[i].Decoded? {
        return Unreadable;
      }
      CollectedStep(lines, i, target);
      var entry := lines[i].entry;
      if entry.time == Some(target) && entry.rooms.Some? {
        rooms := AppendObjects(rooms, entry.rooms.value);
      }
      i := i + 1;
    }
    assert lines[..i] == lines;
    return Fetched(rooms);
  }

  /** The inner loop of the fetch: append the object elements of one line's room list. */
  method AppendObjects(rooms: seq<LoggedRoom>, items: seq<Option<LoggedRoom>>) returns (extended: seq<LoggedRoom>)
    ensures extended == rooms + Objects(items)
  {
    extended := rooms;
    var j := 0;
    while j < |items|
      invariant j <= |items|
      invariant extended == rooms + Objects(items[..j])
    {
      assert items[..j + 1] == items[..j] + [items[j]];
      ObjectsSnoc(items[..j], items[j]);
      if items[j].Some? {
        extended := extended + [items[j].value];
      }
      j := j + 1;
    }
    assert items[..j] == items;
  }

  /** Reading one more line adds that line's room objects to what was collected. */
  lemma {:induction false} CollectedStep(lines: seq<Line>, i: nat, target: Instant)
    requires i < |lines|
    ensures Collected(lines[..i + 1], target) == Collected(lines[..i], target) + Objects(LineItems(lines[i], target))
  {
    assert lines[..i + 1][..i] == lines[..i];
    ObjectsAppend(MatchingItems(lines[..i], target), LineItems(lines[i], target));
  }

  lemma {:induction false} MatchingItemsAppend(a: seq<Line>, b: seq<Line>, target: Instant)
    ensures MatchingItems(a + b, target) == MatchingItems(a, target) + MatchingItems(b, target)
    decreases |b|
  {
    if b == [] {
      assert a + b == a;
    } else {
      var n := |b| - 1;
      var ab := a + b;
      assert ab[..|ab| - 1] == a + b[..n];
      assert ab[|ab| - 1] == b[n];
      MatchingItemsAppend(a, b[..n], target);
      var front, middle, last := MatchingItems(a, target), MatchingItems(b[..n], target), LineItems(b[n], target);
      assert (front + middle) + last == front + (middle + last);
    }
  }

  /** Appending lines to the log appends their rooms to every later fetch. */
  lemma {:induction false} CollectedAppend(a: seq<Line>, b: seq<Line>, target: Instant)
    ensures Collected(a + b, target) == Collected(a, target) + Collected(b, target)
  {
    MatchingItemsAppend(a, b, target);
    ObjectsAppend(MatchingItems(a, target), MatchingItems(b, target));
  }

  lemma {:induction false} MatchingItemsMember(lines: seq<Line>, target: Instant, x: LoggedRoom)
    ensures Some(x) in MatchingItems(lines, target) <==>
      exists k :: 0 <= k < |lines| && Some(x) in LineItems(lines[k], target)
  {
    if lines != [] {
      var n := |lines| - 1;
      MatchingItemsMember(lines[..n], target, x);
      if exists k :: 0 <= k < |lines| && Some(x) in LineItems(lines[k], target) {
        var k :| 0 <= k < |lines| && Some(x) in LineItems(lines[k], target);
        if k < n {
          assert lines[..n][k] == lines[k];
        }
      }
    }
  }

  /** A fetched room is a room object of some line logged at exactly the target time. */
  lemma {:induction false} CollectedMember(lines: seq<Line>, target: Instant, x: LoggedRoom)
    ensures x in Collected(lines, target) <==>
      exists k :: 0 <= k < |lines| && lines[k].Decoded? && lines[k].entry.time == Some(target)
                  && lines[k].entry.rooms.Some? && Some(x) in lines[k].entry.rooms.value
  {
    ObjectsMember(MatchingItems(lines, target), x);
    MatchingItemsMember(lines, target, x);
  }

  // ----- Looking a student up in a fetch -----

  datatype Response = Response(roomNumber: string, details: string, toe: string, block: string)

  /** What GetStudentAssignment answers. */
  datatype Lookup = Found(response: Response) | FetchFailed | MissingToe | BadRowOrSide | NotFound

  /** An element of a room's seat list together with the number of the room it was listed under. */
  datatype Candidate = Candidate(room: string, seat: Option<LoggedSeat>)

  function SeatCandidates(room: string, seats: seq<Option<LoggedSeat>>): (cs: seq<Candidate>)
    ensures |cs| == |seats| && forall k :: 0 <= k < |seats| ==> cs[k] == Candidate(room, seats[k])
  {
    seq(|seats|, k requires 0 <= k < |seats| => Candidate(room, seats[k]))
  }

  function RoomCandidates(r: LoggedRoom): seq<Candidate>
  {
    if r.seats.Some? then SeatCandidates(r.room, r.seats.value) else []
  }

  /** Every seat-list element of a fetch, room after room, in the order the lookup visits them. */
  function Candidates(rooms: seq<LoggedRoom>): seq<Candidate>
  {
    if rooms == [] then [] else Candidates(rooms[..|rooms| - 1]) + RoomCandidates(rooms[|rooms| - 1])
  }

  /**
   * A seat object that ends the search: it carries the student's id and either
   * no time field at all or the requested time's text. A seat of the student
   * whose time is other text or not a string, and an element that is not an
   * object, are passed over.
   */
  predicate Decisive(c: Candidate, studentId: string, toeText: string)
  {
    && c.seat.Some?
    && c.seat.value.studentId == Some(studentId)
    && (c.seat.value.toe.NoTime? || c.seat.value.toe == Text(toeText))
  }

  predicate NoneDecisive(cs: seq<Candidate>, studentId: string, toeText: string)
  {
    forall k :: 0 <= k < |cs| ==> !Decisive(cs[k], studentId, toeText)
  }

  predicate FirstDecisive(cs: seq<Candidate>, studentId: string, toeText: string, k: int)
  {
    && 0 <= k < |cs|
    && Decisive(cs[k], studentId, toeText)
    && forall l :: 0 <= l < k ==> !Decisive(cs[l], studentId, toeText)
  }

  /** Go's %d for an int. */
  function DecimalText(n: int): (s: string)
    ensures |s| >= 1
  {
    if n < 0 then "-" + DecimalString(-n) else DecimalString(n)
  }

  /**
   * The answer a decisive seat object gives: an error when it has no time,
   * an error when its row or side is missing, else the room with a
   * "<side> - Row: <row>" detail and an empty block.
   */
  function Answer(c: Candidate, toeText: string): (r: Lookup)
    requires c.seat.Some? && !c.seat.value.toe.NotText?
    ensures r != NotFound && r != FetchFailed
  {
    var seat := c.seat.value;
    if seat.toe.NoTime? then MissingToe
    else if seat.row.Some? && seat.side.Some? then
      Found(Response(c.room, seat.side.value + " - Row: " + DecimalText(seat.row.value), seat.toe.text, ""))
    else BadRowOrSide
  }

  lemma {:induction false} CandidatesPrefix(rooms: seq<LoggedRoom>, i: nat)
    requires i <= |rooms|
    ensures Candidates(rooms[..i]) <= Candidates(rooms)
    decreases |rooms| - i
  {
    if i < |rooms| {
      var n := |rooms| - 1;
      assert rooms[..n][..i] == rooms[..i];
      CandidatesPrefix(rooms[..n], i);
    } else {
      assert rooms[..i] == rooms;
    }
  }

  /** Visiting one more room adds that room's seat-list elements. */
  lemma {:induction false} CandidatesStep(rooms: seq<LoggedRoom>, i: nat)
    requires i < |rooms|
    ensures Candidates(rooms[..i + 1]) == Candidates(rooms[..i]) + RoomCandidates(rooms[i])
  {
    assert rooms[..i + 1][..i] == rooms[..i];
  }

  lemma FirstDecisivePrefix(p: seq<Candidate>, c: seq<Candidate>, studentId: string, toeText: string, k: int)
    requires FirstDecisive(p, studentId, toeText, k) && p <= c
    ensures FirstDecisive(c, studentId, toeText, k) && c[k] == p[k]
  {
    assert forall l :: 0 <= l <= k ==> c[l] == p[l];
  }

  lemma FirstDecisiveShift(p: seq<Candidate>, q: seq<Candidate>, studentId: string, toeText: string, k: int)
    requires NoneDecisive(p, studentId, toeText) && FirstDecisive(q, studentId, toeText, k)
    ensures FirstDecisive(p + q, studentId, toeText, |p| + k)
    ensures (p + q)[|p| + k] == q[k]
  {
    forall l | 0 <= l < |p| + k
      ensures !Decisive((p + q)[l], studentId, toeText)
    {
      if l < |p| {
        assert (p + q)[l] == p[l];
      } else {
        assert (p + q)[l] == q[l - |p|];
      }
    }
  }

  lemma NoneDecisiveAppend(p: seq<Candidate>, q: seq<Candidate>, studentId: string, toeText: string)
    requires NoneDecisive(p, studentId, toeText) && NoneDecisive(q, studentId, toeText)
    ensures NoneDecisive(p + q, studentId, toeText)
  {
    forall l | 0 <= l < |p + q|
      ensures !Decisive((p + q)[l], studentId, toeText)
    {
      if l < |p| {
        assert (p + q)[l] == p[l];
      } else {
        assert (p + q)[l] == q[l - |p|];
      }
    }
  }

  /**
   * The inner loop of GetStudentAssignment over one room's seat list: the
   * first seat object of the student that has no time or the requested time
   * decides the answer; NotFound when there is none.
   */
  method ScanRoom(room: string, seats: seq<Option<LoggedSeat>>, studentId: string, toeText: string) returns (r: Lookup)
    ensures r == NotFound <==> NoneDecisive(SeatCandidates(room, seats), studentId, toeText)
    ensures r != NotFound ==> exists k :: FirstDecisive(SeatCandidates(room, seats), studentId, toeText, k)
                                         && r == Answer(SeatCandidates(room, seats)[k], toeText)
  {
    ghost var cs := SeatCandidates(room, seats);
    var j := 0;
    while j < |seats|
      invariant j <= |seats|
      invariant forall l :: 0 <= l < j ==> !Decisive(cs[l], studentId, toeText)
    {
      if seats[j].Some? {
        var seat := seats[j].value;
        if seat.studentId == Some(studentId) {
          if seat.toe.NoTime? {
            assert FirstDecisive(cs, studentId, toeText, j);
            return MissingToe;
          } else if seat.toe == Text(toeText) {
            assert FirstDecisive(cs, studentId, toeText, j);
            if seat.row.Some? && seat.side.Some? {
              var details := seat.side.value + " - Row: " + DecimalText(seat.row.value);
              return Found(Response(room, details, seat.toe.text, ""));
            } else {
              return BadRowOrSide;
            }
          }
        }
      }
      j := j + 1;
    }
    return NotFound;
  }

  /** The outer loop of GetStudentAssignment over the fetched room objects. */
  method LookupStudent(rooms: seq<LoggedRoom>, studentId: string, toeText: string) returns (r: Lookup)
    ensures r == NotFound <==> NoneDecisive(Candidates(rooms), studentId, toeText)
    ensures r != NotFound ==> exists k :: FirstDecisive(Candidates(rooms), studentId, toeText, k)
                                         && r == Answer(Candidates(rooms)[k], toeText)
  {
    var i := 0;
    while i < |rooms|
      invariant i <= |rooms|
      invariant NoneDecisive(Candidates(rooms[..i]), studentId, toeText)
    {
      CandidatesStep(rooms, i);
      CandidatesPrefix(rooms, i + 1);
      if rooms[i].seats.Some? {
        r := ScanRoom(rooms[i].room, rooms[i].seats.value, studentId, toeText);
        ghost var inRoom := SeatCandidates(rooms[i].room, rooms[i].seats.value);
        if r != NotFound {
          ghost var k :| FirstDecisive(inRoom, studentId, toeText, k) && r == Answer(inRoom[k], toeText);
          ghost var at := |Candidates(rooms[..i])| + k;
          FirstDecisiveShift(Candidates(rooms[..i]), inRoom, studentId, toeText, k);
          FirstDecisivePrefix(Candidates(rooms[..i + 1]), Candidates(rooms), studentId, toeText, at);
          return r;
        }
        NoneDecisiveAppend(Candidates(rooms[..i]), inRoom, studentId, toeText);
      }
      i := i + 1;
    }
    assert rooms[..i] == rooms;
    return NotFound;
  }

  /**
   * GetStudentAssignment: fetch the log at the exam time, then search the
   * fetched rooms for the student. A log that cannot be read is reported
   * before any search.
   */
  method GetStudentAssignment(lines: seq<Line>, studentId: string, toe: Instant, toeText: string) returns (r: Lookup)
    ensures r == FetchFailed <==> exists k :: 0 <= k < |lines| && !lines[k].Decoded?
    ensures r != FetchFailed ==>
      (r == NotFound <==> NoneDecisive(Candidates(Collected(lines, toe)), studentId, toeText))
    ensures r != FetchFailed && r != NotFound ==>
      exists k :: FirstDecisive(Candidates(Collected(lines, toe)), studentId, toeText, k)
                  && r == Answer(Candidates(Collected(lines, toe))[k], toeText)
  {
    var fetched := FetchAssignmentsByTime(lines, toe);
    if fetched.Unreadable? {
      return FetchFailed;
    }
    r := LookupStudent(fetched.rooms, studentId, toeText);
  }

  // ----- Writing a run to the log -----

  function SideText(side: Side): string
  {
    if side == Left then "left" else "right"
  }

  /** The seat object written for a seat; `toeText` and `doeText` are the formatted exam time and duration. */
  function LoggedSeatOf(s: Seat, toeText: string, doeText: string): LoggedSeat
  {
    LoggedSeat(Some(s.studentId), Some(s.row), Some(s.column), Some(SideText(s.side)), Text(toeText), Some(doeText))
  }

  function LoggedSeats(seats: seq<Seat>, toeText: string, doeText: string): (logged: seq<Option<LoggedSeat>>)
    ensures |logged| == |seats|
  {
    seq(|seats|, k requires 0 <= k < |seats| => Some(LoggedSeatOf(seats[k], toeText, doeText)))
  }

  function LoggedRoomOf(entry: RoomEntry, toeText: string, doeText: string): LoggedRoom
  {
    LoggedRoom(entry.room, Some(LoggedSeats(entry.assignments, toeText, doeText)))
  }

  /** The room objects written for a run, one per visited room, in order. */
  function LoggedRooms(entries: seq<RoomEntry>, toeText: string, doeText: string): (logged: seq<LoggedRoom>)
    ensures |logged| == |entries|
  {
    seq(|entries|, k requires 0 <= k < |entries| => LoggedRoomOf(entries[k], toeText, doeText))
  }

  function Wrapped(rooms: seq<LoggedRoom>): (items: seq<Option<LoggedRoom>>)
    ensures |items| == |rooms| && forall k :: 0 <= k < |rooms| ==> items[k] == Some(rooms[k])
  {
    seq(|rooms|, k requires 0 <= k < |rooms| => Some(rooms[k]))
  }

  lemma {:induction false} ObjectsWrapped(rooms: seq<LoggedRoom>)
    ensures Objects(Wrapped(rooms)) == rooms
  {
    if rooms != [] {
      var n := |rooms| - 1;
      assert Wrapped(rooms)[..n] == Wrapped(rooms[..n]);
      ObjectsWrapped(rooms[..n]);
      assert rooms == rooms[..n] + [rooms[n]];
    }
  }

  const NanosPerSecond := 1_000_000_000

  /**
   * The instant RFC 3339 text names: the layout has no fraction of a second,
   * so formatting an instant and parsing the text back gives the start of its
   * second.
   */
  function WholeSecond(t: Instant): (w: Instant)
    ensures w.unixNanos <= t.unixNanos < w.unixNanos + NanosPerSecond
    ensures w.unixNanos % NanosPerSecond == 0
  {
    Instant((t.unixNanos / NanosPerSecond) * NanosPerSecond)
  }

  /**
   * The log line LogAssignments writes, AS WRITTEN: its time is the exam time
   * as RFC 3339 text, and its "room" field reads the first room entry, which
   * panics with an index out of range when the run visited no room (None).
   */
  function LogRecordAsWritten(entries: seq<RoomEntry>, toe: Instant, toeText: string, doeText: string): (line: Option<LogEntry>)
    ensures line.Some? <==> entries != []
    ensures line.Some? ==> line.value.room == Some(entries[0].room) && line.value.time == Some(WholeSecond(toe))
  {
    if entries == [] then None
    else Some(LogEntry(Some(WholeSecond(toe)), Some(entries[0].room), Some(Wrapped(LoggedRooms(entries, toeText, doeText)))))
  }

  /**
   * The log line of a run, corrected: a run that visited no room is still
   * logged, with no leading room number and an empty room list.
   */
  function LogRecord(entries: seq<RoomEntry>, toe: Instant, toeText: string, doeText: string): (line: LogEntry)
    ensures line.time == Some(WholeSecond(toe))
    ensures line.room == if entries == [] then None else Some(entries[0].room)
    ensures entries != [] ==> Some(line) == LogRecordAsWritten(entries, toe, toeText, doeText)
  {
    LogEntry(Some(WholeSecond(toe)), if entries == [] then None else Some(entries[0].room),
             Some(Wrapped(LoggedRooms(entries, toeText, doeText))))
  }

  /**
   * An allocation over no rooms (every requested block unknown) visits no
   * room, and logging it as written panics.
   */
  lemma {:induction false} EmptyRunPanics(policy: Policy, students: Cohorts, entries: seq<RoomEntry>, snapshots: seq<Cohorts>,
                       tags: seq<seq<string>>, toe: Instant, doe: Duration, toeText: string, doeText: string)
    requires Run(policy, [], students, entries, snapshots, tags, toe, doe)
    ensures entries == []
    ensures LogRecordAsWritten(entries, toe, toeText, doeText) == None
  {
  }

  /**
   * Every allocation that completes without visiting a room, and so makes
   * logging as written panic: no requested block is known, no student is
   * selected, or in one-branch mode no listed branch has students at the
   * first room.
   */
  lemma NoRoomVisitedPanics(policy: Policy, rooms: seq<Room>, students: Cohorts, entries: seq<RoomEntry>,
                            snapshots: seq<Cohorts>, tags: seq<seq<string>>, toe: Instant, doe: Duration,
                            toeText: string, doeText: string)
    requires Completed(policy, rooms, students, entries, snapshots, tags, toe, doe)
    requires || rooms == []
             || students == map[]
             || (policy.branchesPerRoom == 1 && CurrentBranch(policy.branches, students) == "")
    ensures entries == []
    ensures LogRecordAsWritten(entries, toe, toeText, doeText) == None
  {
    if entries != [] {
      VisitedNotStopped(policy, rooms, students, entries, snapshots, tags, toe, doe, 0);
      RunStart(policy, rooms, students, entries, snapshots, tags, toe, doe);
    }
  }

  /**
   * Fetching the corrected log line of a run gives back every room object
   * written for it when the fetch asks for the whole second the line records,
   * and nothing at any other instant.
   */
  lemma {:induction false} RunLogFetched(entries: seq<RoomEntry>, toe: Instant, target: Instant, toeText: string, doeText: string)
    ensures Collected([Decoded(LogRecord(entries, toe, toeText, doeText))], target)
      == if target == WholeSecond(toe) then LoggedRooms(entries, toeText, doeText) else []
  {
    var logged := LoggedRooms(entries, toeText, doeText);
    var lines := [Decoded(LogRecord(entries, toe, toeText, doeText))];
    assert lines[..0] == [];
    if target == WholeSecond(toe) {
      assert LineItems(lines[0], target) == Wrapped(logged);
      assert MatchingItems(lines, target) == MatchingItems([], target) + Wrapped(logged) == Wrapped(logged);
      ObjectsWrapped(logged);
    } else {
      assert LineItems(lines[0], target) == [];
      assert MatchingItems(lines, target) == [];
    }
  }

  /**
   * An exam time with a fraction of a second is logged at the start of its
   * second, so looking anyone up at the exam time itself finds nothing.
   */
  lemma FractionalTimeNotFound(entries: seq<RoomEntry>, toe: Instant, toeText: string, doeText: string, studentId: string)
    requires WholeSecond(toe) != toe
    ensures Collected([Decoded(LogRecord(entries, toe, toeText, doeText))], toe) == []
    ensures NoneDecisive(Candidates(Collected([Decoded(LogRecord(entries, toe, toeText, doeText))], toe)), studentId, toeText)
  {
    RunLogFetched(entries, toe, toe, toeText, doeText);
  }

  lemma {:induction false} CandidatesSnoc(entries: seq<RoomEntry>, toeText: string, doeText: string)
    requires entries != []
    ensures var n := |entries| - 1;
      Candidates(LoggedRooms(entries, toeText, doeText))
        == Candidates(LoggedRooms(entries[..n], toeText, doeText))
           + SeatCandidates(entries[n].room, LoggedSeats(entries[n].assignments, toeText, doeText))
  {
    var n := |entries| - 1;
    assert LoggedRooms(entries, toeText, doeText)[..n] == LoggedRooms(entries[..n], toeText, doeText);
  }

  lemma {:induction false} CandidatesLength(entries: seq<RoomEntry>, toeText: string, doeText: string)
    ensures |Candidates(LoggedRooms(entries, toeText, doeText))| == |AllSeats(entries)|
  {
    if entries != [] {
      var n := |entries| - 1;
      CandidatesSnoc(entries, toeText, doeText);
      CandidatesLength(entries[..n], toeText, doeText);
    }
  }

  /**
   * The seat-list elements of a logged run, in lookup order, are the seat
   * objects of the run's seats, room after room.
   */
  lemma {:induction false} CandidatesOfRun(entries: seq<RoomEntry>, toeText: string, doeText: string)
    ensures |Candidates(LoggedRooms(entries, toeText, doeText))| == |AllSeats(entries)|
    ensures forall k :: 0 <= k < |AllSeats(entries)| ==>
      Candidates(LoggedRooms(entries, toeText, doeText))[k].seat == Some(LoggedSeatOf(AllSeats(entries)[k], toeText, doeText))
  {
    if entries != [] {
      var n := |entries| - 1;
      var front, seats := entries[..n], entries[n].assignments;
      CandidatesSnoc(entries, toeText, doeText);
      CandidatesOfRun(front, toeText, doeText);
      var p: seq<Candidate> := Candidates(LoggedRooms(front, toeText, doeText));
      var q: seq<Candidate> := SeatCandidates(entries[n].room, LoggedSeats(seats, toeText, doeText));
      CandidatesConcat(p, q, AllSeats(front), seats, toeText, doeText);
    }
  }

  lemma CandidatesConcat(p: seq<Candidate>, q: seq<Candidate>, a: seq<Seat>, b: seq<Seat>, toeText: string, doeText: string)
    requires |p| == |a| && |q| == |b|
    requires forall k :: 0 <= k < |a| ==> p[k].seat == Some(LoggedSeatOf(a[k], toeText, doeText))
    requires forall k :: 0 <= k < |b| ==> q[k].seat == Some(LoggedSeatOf(b[k], toeText, doeText))
    ensures forall k :: 0 <= k < |a + b| ==> (p + q)[k].seat == Some(LoggedSeatOf((a + b)[k], toeText, doeText))
  {
    forall k | 0 <= k < |a + b|
      ensures (p + q)[k].seat == Some(LoggedSeatOf((a + b)[k], toeText, doeText))
    {
    }
  }

  /** A student seated nowhere in the run is not found in its log. */
  lemma {:induction false} NotSeatedNotFound(entries: seq<RoomEntry>, studentId: string, toeText: string, doeText: string)
    requires studentId !in SeatIds(AllSeats(entries))
    ensures NoneDecisive(Candidates(LoggedRooms(entries, toeText, doeText)), studentId, toeText)
  {
    CandidatesOfRun(entries, toeText, doeText);
    var cs := Candidates(LoggedRooms(entries, toeText, doeText));
    forall k | 0 <= k < |cs|
      ensures !Decisive(cs[k], studentId, toeText)
    {
      assert SeatIds(AllSeats(entries))[k] == AllSeats(entries)[k].studentId;
    }
  }

  /**
   * A run's log line records its seats with the request's time text, and the
   * search compares that text, not the instant: looking a student up with any
   * other text finds no deciding seat, at whatever instant the line is fetched,
   * even one naming the same instant in another UTC offset.
   */
  lemma OtherTimeTextNotFound(entries: seq<RoomEntry>, toe: Instant, target: Instant, toeText: string, doeText: string,
                              studentId: string, lookupText: string)
    requires lookupText != toeText
    ensures NoneDecisive(Candidates(Collected([Decoded(LogRecord(entries, toe, toeText, doeText))], target)),
                         studentId, lookupText)
  {
    RunLogFetched(entries, toe, target, toeText, doeText);
    CandidatesOfRun(entries, toeText, doeText);
  }

  /** Room i's seat-list elements follow those of the rooms before it, which number |AllSeats(entries[..i])|. */
  lemma {:induction false} RoomCandidatesAt(entries: seq<RoomEntry>, i: nat, toeText: string, doeText: string)
    requires i < |entries|
    ensures Candidates(LoggedRooms(entries[..i + 1], toeText, doeText))
      == Candidates(LoggedRooms(entries[..i], toeText, doeText))
         + SeatCandidates(entries[i].room, LoggedSeats(entries[i].assignments, toeText, doeText))
    ensures |Candidates(LoggedRooms(entries[..i], toeText, doeText))| == |AllSeats(entries[..i])|
  {
    var upto := entries[..i + 1];
    assert upto[..i] == entries[..i];
    CandidatesSnoc(upto, toeText, doeText);
    CandidatesLength(entries[..i], toeText, doeText);
  }

  /** The seat-list elements of a run's first i rooms come first in the run's log. */
  lemma {:induction false} RunPrefixCandidates(entries: seq<RoomEntry>, i: nat, toeText: string, doeText: string)
    requires i <= |entries|
    ensures Candidates(LoggedRooms(entries[..i], toeText, doeText)) <= Candidates(LoggedRooms(entries, toeText, doeText))
  {
    assert LoggedRooms(entries, toeText, doeText)[..i] == LoggedRooms(entries[..i], toeText, doeText);
    CandidatesPrefix(LoggedRooms(entries, toeText, doeText), i);
  }

  /** An element of a middle part of a prefix sits at the same place in the whole. */
  lemma PrefixIndex(cs: seq<Candidate>, pre: seq<Candidate>, front: seq<Candidate>, here: seq<Candidate>, j: nat)
    requires pre <= cs && pre == front + here && j < |here|
    ensures |front| + j < |cs| && cs[|front| + j] == here[j]
  {
    assert pre[|front| + j] == here[j];
  }

  /** The j-th seat of room i is listed under room i at position |AllSeats(entries[..i])| + j of the log. */
  lemma {:induction false} SeatPosition(entries: seq<RoomEntry>, i: nat, j: nat, toeText: string, doeText: string)
    requires i < |entries| && j < |entries[i].assignments|
    ensures var cs := Candidates(LoggedRooms(entries, toeText, doeText));
      var g := |AllSeats(entries[..i])| + j;
      g < |cs| && cs[g] == Candidate(entries[i].room, Some(LoggedSeatOf(entries[i].assignments[j], toeText, doeText)))
  {
    var cs := Candidates(LoggedRooms(entries, toeText, doeText));
    var front := Candidates(LoggedRooms(entries[..i], toeText, doeText));
    var here := SeatCandidates(entries[i].room, LoggedSeats(entries[i].assignments, toeText, doeText));
    RunPrefixCandidates(entries, i + 1, toeText, doeText);
    RoomCandidatesAt(entries, i, toeText, doeText);
    PrefixIndex(cs, Candidates(LoggedRooms(entries[..i + 1], toeText, doeText)), front, here, j);
  }

  /**
   * In a list of seat objects written for seats with pairwise different ids,
   * the object of seat g is the first one that ends a search for its id.
   */
  lemma FirstDecisiveAt(cs: seq<Candidate>, seats: seq<Seat>, g: nat, toeText: string, doeText: string)
    requires |cs| == |seats| && g < |seats|
    requires forall k :: 0 <= k < |seats| ==> cs[k].seat == Some(LoggedSeatOf(seats[k], toeText, doeText))
    requires NoDuplicates(SeatIds(seats))
    ensures FirstDecisive(cs, seats[g].studentId, toeText, g)
  {
    var ids := SeatIds(seats);
    forall l | 0 <= l < g
      ensures !Decisive(cs[l], seats[g].studentId, toeText)
    {
      assert ids[l] != ids[g];
    }
  }

  /**
   * The round trip of the ledger: when no student is seated twice, looking
   * up a seated student in the log written for the run, at the run's exam
   * time, finds the room the student was seated in and the seat's side and row.
   */
  lemma {:induction false} LookupSeated(entries: seq<RoomEntry>, i: nat, j: nat, toeText: string, doeText: string)
    requires i < |entries| && j < |entries[i].assignments|
    requires NoDuplicates(SeatIds(AllSeats(entries)))
    ensures var s := entries[i].assignments[j];
      var cs := Candidates(LoggedRooms(entries, toeText, doeText));
      exists k :: FirstDecisive(cs, s.studentId, toeText, k)
                  && Answer(cs[k], toeText)
                     == Found(Response(entries[i].room, SideText(s.side) + " - Row: " + DecimalText(s.row), toeText, ""))
  {
    var s := entries[i].assignments[j];
    var cs := Candidates(LoggedRooms(entries, toeText, doeText));
    var g := |AllSeats(entries[..i])| + j;
    SeatFirstDecisive(entries, i, j, toeText, doeText);
    SeatPosition(entries, i, j, toeText, doeText);
    AnswerOfWritten(cs[g], entries[i].room, s, toeText, doeText);
  }

  /** The seat object written for seat j of room i is the first one that ends a search for its student. */
  lemma {:induction false} SeatFirstDecisive(entries: seq<RoomEntry>, i: nat, j: nat, toeText: string, doeText: string)
    requires i < |entries| && j < |entries[i].assignments|
    requires NoDuplicates(SeatIds(AllSeats(entries)))
    ensures var s := entries[i].assignments[j];
      var cs := Candidates(LoggedRooms(entries, toeText, doeText));
      var g := |AllSeats(entries[..i])| + j;
      FirstDecisive(cs, s.studentId, toeText, g)
  {
    var all := AllSeats(entries);
    AllSeatsAt(entries, i, j);
    CandidatesOfRun(entries, toeText, doeText);
    FirstDecisiveAt(Candidates(LoggedRooms(entries, toeText, doeText)), all, |AllSeats(entries[..i])| + j, toeText, doeText);
  }

  /** Seat j of room i is seat |AllSeats(entries[..i])| + j of the whole run. */
  lemma AllSeatsAt(entries: seq<RoomEntry>, i: nat, j: nat)
    requires i < |entries| && j < |entries[i].assignments|
    ensures |AllSeats(entries[..i])| + j < |AllSeats(entries)|
    ensures AllSeats(entries)[|AllSeats(entries[..i])| + j] == entries[i].assignments[j]
  {
    var upto := entries[..i + 1];
    assert upto[..i] == entries[..i];
    AllSeatsPrefix(entries, i + 1);
  }

  /** The seats of the first i rooms come first among the seats of a run. */
  lemma {:induction false} AllSeatsPrefix(entries: seq<RoomEntry>, i: nat)
    requires i <= |entries|
    ensures AllSeats(entries[..i]) <= AllSeats(entries)
    decreases |entries| - i
  {
    if i < |entries| {
      var n := |entries| - 1;
      assert entries[..n][..i] == entries[..i];
      AllSeatsPrefix(entries[..n], i);
    } else {
      assert entries[..i] == entries;
    }
  }

  /** A search that stops at the seat object written for a seat answers that seat's room, side and row. */
  lemma AnswerOfWritten(c: Candidate, room: string, s: Seat, toeText: string, doeText: string)
    requires c == Candidate(room, Some(LoggedSeatOf(s, toeText, doeText)))
    ensures Answer(c, toeText) == Found(Response(room, SideText(s.side) + " - Row: " + DecimalText(s.row), toeText, ""))
  {
  }

  /**
   * End to end: after a run over queues in which every id is distinct, at an
   * exam time of whole seconds, looking up any seated student in the
   * corrected log line of the run, at the run's exam time, answers the room
   * the student was seated in, with the seat's side and row.
   */
  lemma {:induction false} RunLookup(policy: Policy, rooms: seq<Room>, students: Cohorts, entries: seq<RoomEntry>,
                                     snapshots: seq<Cohorts>, tags: seq<seq<string>>, toe: Instant, doe: Duration,
                                     toeText: string, doeText: string, i: nat, j: nat)
    requires Run(policy, rooms, students, entries, snapshots, tags, toe, doe) && DistinctIds(students)
    requires WholeSecond(toe) == toe
    requires i < |entries| && j < |entries[i].assignments|
    ensures var s := entries[i].assignments[j];
      var cs := Candidates(Collected([Decoded(LogRecord(entries, toe, toeText, doeText))], toe));
      exists k :: FirstDecisive(cs, s.studentId, toeText, k)
                  && Answer(cs[k], toeText)
                     == Found(Response(rooms[i].roomNumber, SideText(s.side) + " - Row: " + DecimalText(s.row), toeText, ""))
  {
    RunSeatsEachStudentOnce(policy, rooms, students, entries, snapshots, tags, toe, doe);
    RunLogFetched(entries, toe, toe, toeText, doeText);
    LookupSeated(entries, i, j, toeText, doeText);
    RunRoomNumber(policy, rooms, students, entries, snapshots, tags, toe, doe, i);
  }

  /** A run records room i under the number of the i-th selected room. */
  lemma {:induction false} RunRoomNumber(policy: Policy, rooms: seq<Room>, students: Cohorts, entries: seq<RoomEntry>,
                                         snapshots: seq<Cohorts>, tags: seq<seq<string>>, toe: Instant, doe: Duration, i: nat)
    requires Run(policy, rooms, students, entries, snapshots, tags, toe, doe) && i < |entries|
    ensures entries[i].room == rooms[i].roomNumber
    decreases |entries|
  {
    var n := |entries| - 1;
    if i < n {
      RunRoomNumber(policy, rooms, students, entries[..n], snapshots[..n + 1], tags[..n], toe, doe, i);
    }
  }
}

=== FILE: queues.dfy ===
/**
 * The per-branch student queues the allocator pops from, the counters it keeps
 * beside them, and what it means for a sequence of seated ids to have been
 * drawn from the fronts of those queues.
 */
module Queues {
  import opened Domain

  /** Branch name to the ordered ids still waiting for a seat. */
  type Cohorts = map<string, seq<string>>

  /** Reading a missing key of Go's remainingStudents map yields 0. */
  function Count(remaining: map<string, int>, branch: string): int
  {
    if branch in remaining then remaining[branch] else 0
  }

  /** The queue of a branch, empty when the branch has no key. */
  function Queue(queues: Cohorts, branch: string): seq<string>
  {
    if branch in queues then queues[branch] else []
  }

  /** remainingStudents has the keys of the queues and holds each queue's length. */
  predicate Counted(queues: Cohorts, remaining: map<string, int>)
  {
    && queues.Keys == remaining.Keys
    && forall b :: b in queues ==> remaining[b] == |queues[b]|
  }

  lemma CountedSupply(queues: Cohorts, remaining: map<string, int>, branch: string)
    requires Counted(queues, remaining)
    ensures Count(remaining, branch) == |Queue(queues, branch)|
  {
  }

  /** The ids in `ids` whose tag is `branch`, in order. */
  function Project(ids: seq<string>, tags: seq<string>, branch: string): (p: seq<string>)
    requires |ids| == |tags|
    ensures |p| <= |ids|
  {
    if ids == [] then []
    else (if tags[0] == branch then [ids[0]] else []) + Project(ids[1..], tags[1..], branch)
  }

  /**
   * `ids` were popped, one at a time, from the fronts of the queues named by
   * `tags`, turning `before` into `after`: for every branch, the ids drawn from
   * it followed by what is left is the original queue.
   */
  predicate Drawn(before: Cohorts, after: Cohorts, ids: seq<string>, tags: seq<string>)
  {
    && |ids| == |tags|
    && before.Keys == after.Keys
    && (forall k :: 0 <= k < |tags| ==> tags[k] in before)
    && (forall b :: b in before ==> before[b] == Project(ids, tags, b) + after[b])
  }

  lemma DrawnNothing(queues: Cohorts)
    ensures Drawn(queues, queues, [], [])
  {
  }

  lemma ProjectSnoc(ids: seq<string>, tags: seq<string>, x: string, t: string, branch: string)
    requires |ids| == |tags|
    ensures Project(ids + [x], tags + [t], branch)
      == Project(ids, tags, branch) + (if t == branch then [x] else [])
  {
    ProjectAppend(ids, tags, [x], [t], branch);
    assert Project([x], [t], branch) == (if t == branch then [x] else []) + Project([], [], branch);
  }

  /** Popping the head of one queue extends the drawn sequence by that head. */
  lemma DrawStep(before: Cohorts, queues: Cohorts, ids: seq<string>, tags: seq<string>, branch: string)
    requires Drawn(before, queues, ids, tags)
    requires branch in queues && |queues[branch]| > 0
    ensures Drawn(before, queues[branch := queues[branch][1..]], ids + [queues[branch][0]], tags + [branch])
  {
    var after := queues[branch := queues[branch][1..]];
    assert after.Keys == queues.Keys;
    forall b | b in before
      ensures before[b] == Project(ids + [queues[branch][0]], tags + [branch], b) + after[b]
    {
      DrawStepAt(before[b], queues, ids, tags, branch, b);
    }
  }

  lemma DrawStepAt(original: seq<string>, queues: Cohorts, ids: seq<string>, tags: seq<string>, branch: string, b: string)
    requires |ids| == |tags| && b in queues && original == Project(ids, tags, b) + queues[b]
    requires branch in queues && |queues[branch]| > 0
    ensures original == Project(ids + [queues[branch][0]], tags + [branch], b) + queues[branch := queues[branch][1..]][b]
  {
    ProjectSnoc(ids, tags, queues[branch][0], branch, b);
    if b == branch {
      PopFront(Project(ids, tags, b), queues[b]);
    } else {
      assert Project(ids, tags, b) + [] == Project(ids, tags, b);
    }
  }

  lemma PopFront(p: seq<string>, q: seq<string>)
    requires |q| > 0
    ensures (p + [q[0]]) + q[1..] == p + q
  {
    assert q == [q[0]] + q[1..];
  }

  lemma {:induction false} ProjectAppend(ids1: seq<string>, tags1: seq<string>, ids2: seq<string>, tags2: seq<string>, branch: string)
    requires |ids1| == |tags1| && |ids2| == |tags2|
    ensures Project(ids1 + ids2, tags1 + tags2, branch) == Project(ids1, tags1, branch) + Project(ids2, tags2, branch)
    decreases |ids1|
  {
    if ids1 == [] {
      assert ids1 + ids2 == ids2 && tags1 + tags2 == tags2;
    } else {
      var ids, tags := ids1 + ids2, tags1 + tags2;
      var head := if tags1[0] == branch then [ids1[0]] else [];
      assert ids[0] == ids1[0] && tags[0] == tags1[0];
      assert ids[1..] == ids1[1..] + ids2 && tags[1..] == tags1[1..] + tags2;
      ProjectAppend(ids1[1..], tags1[1..], ids2, tags2, branch);
      var a, b := Project(ids1[1..], tags1[1..], branch), Project(ids2, tags2, branch);
      assert Project(ids, tags, branch) == head + (a + b);
      assert Project(ids1, tags1, branch) == head + a;
      assert head + (a + b) == (head + a) + b;
    }
  }

  /** Two runs of draws, one after the other, are one run of draws. */
  lemma DrawnTrans(a: Cohorts, b: Cohorts, c: Cohorts, ids1: seq<string>, tags1: seq<string>, ids2: seq<string>, tags2: seq<string>)
    requires Drawn(a, b, ids1, tags1) && Drawn(b, c, ids2, tags2)
    ensures Drawn(a, c, ids1 + ids2, tags1 + tags2)
  {
    forall x | x in a
      ensures a[x] == Project(ids1 + ids2, tags1 + tags2, x) + c[x]
    {
      ProjectAppend(ids1, tags1, ids2, tags2, x);
    }
  }

  function Repeat(x: string, n: nat): (r: seq<string>)
    ensures |r| == n && forall k :: 0 <= k < n ==> r[k] == x
  {
    seq(n, _ => x)
  }

  lemma {:induction false} ProjectRepeat(ids: seq<string>, t: string, branch: string)
    ensures Project(ids, Repeat(t, |ids|), branch) == if t == branch then ids else []
  {
    if ids != [] {
      assert Repeat(t, |ids|)[1..] == Repeat(t, |ids| - 1);
      ProjectRepeat(ids[1..], t, branch);
      assert ids == [ids[0]] + ids[1..];
    }
  }

  /** Taking the first n ids of one branch's queue is a run of draws from that branch. */
  lemma DrawnFromOne(queues: Cohorts, branch: string, n: nat)
    requires branch in queues && n <= |queues[branch]|
    ensures Drawn(queues, queues[branch := queues[branch][n..]], queues[branch][..n], Repeat(branch, n))
  {
    var ids := queues[branch][..n];
    forall b | b in queues
      ensures queues[b] == Project(ids, Repeat(branch, n), b) + queues[branch := queues[branch][n..]][b]
    {
      ProjectRepeat(ids, branch, b);
      if b == branch {
        assert queues[b] == queues[b][..n] + queues[b][n..];
      }
    }
  }

  predicate NoDuplicates(s: seq<string>)
  {
    forall i, j :: 0 <= i < j < |s| ==> s[i] != s[j]
  }

  /** Every id is queued once: no id twice in a queue, no id in two queues. */
  predicate DistinctIds(queues: Cohorts)
  {
    && (forall b :: b in queues ==> NoDuplicates(queues[b]))
    && (forall b1, b2, x :: b1 in queues && b2 in queues && b1 != b2 && x in queues[b1] ==> x !in queues[b2])
  }

  /** How many of the first i tags are `branch`. */
  function TagCount(tags: seq<string>, branch: string, i: nat): (c: nat)
    requires i <= |tags|
    ensures c <= i
  {
    if i == 0 then 0 else (if tags[0] == branch then 1 else 0) + TagCount(tags[1..], branch, i - 1)
  }

  /** The i-th id sits in its branch's projection after the earlier ids of that branch. */
  lemma {:induction false} ProjectAt(ids: seq<string>, tags: seq<string>, i: nat)
    requires |ids| == |tags| && i < |ids|
    ensures TagCount(tags, tags[i], i) < |Project(ids, tags, tags[i])|
    ensures Project(ids, tags, tags[i])[TagCount(tags, tags[i], i)] == ids[i]
  {
    if i > 0 {
      ProjectAt(ids[1..], tags[1..], i - 1);
    }
  }

  /** A later id of the same branch sits further along its branch's projection. */
  lemma {:induction false} TagCountGrows(tags: seq<string>, i: nat, j: nat)
    requires i < j < |tags|
    ensures TagCount(tags, tags[i], i) < TagCount(tags, tags[i], j)
  {
    if i > 0 {
      TagCountGrows(tags[1..], i - 1, j - 1);
    } else {
      assert TagCount(tags, tags[0], j) >= 1;
    }
  }

  /**
   * When every queued id is distinct, ids drawn from the queues are distinct:
   * no student is seated twice.
   */
  lemma DrawnNoDuplicates(before: Cohorts, after: Cohorts, ids: seq<string>, tags: seq<string>)
    requires Drawn(before, after, ids, tags) && DistinctIds(before)
    ensures NoDuplicates(ids)
  {
    forall i, j | 0 <= i < j < |ids|
      ensures ids[i] != ids[j]
    {
      var c, d := tags[i], tags[j];
      ProjectAt(ids, tags, i);
      ProjectAt(ids, tags, j);
      var pi, pj := TagCount(tags, c, i), TagCount(tags, d, j);
      assert before[c] == Project(ids, tags, c) + after[c];
      assert before[d] == Project(ids, tags, d) + after[d];
      assert before[c][pi] == ids[i] && before[d][pj] == ids[j];
      if c == d {
        TagCountGrows(tags, i, j);
        assert before[c][pi] != before[c][pj];
      } else {
        assert ids[i] in before[c] && ids[j] in before[d];
      }
    }
  }

  /** Every drawn id was queued under the branch it is tagged with. */
  lemma DrawnIdsQueued(before: Cohorts, after: Cohorts, ids: seq<string>, tags: seq<string>)
    requires Drawn(before, after, ids, tags)
    ensures forall k :: 0 <= k < |ids| ==> tags[k] in before && ids[k] in before[tags[k]]
  {
    forall k | 0 <= k < |ids|
      ensures tags[k] in before && ids[k] in before[tags[k]]
    {
      ProjectAt(ids, tags, k);
      assert before[tags[k]] == Project(ids, tags, tags[k]) + after[tags[k]];
      assert before[tags[k]][TagCount(tags, tags[k], k)] == ids[k];
    }
  }

  /** What is still queued after some draws was queued before them, under the same branch. */
  lemma DrawnRestQueued(before: Cohorts, after: Cohorts, ids: seq<string>, tags: seq<string>)
    requires Drawn(before, after, ids, tags)
    ensures forall b, x :: b in after && x in after[b] ==> b in before && x in before[b]
  {
    forall b, x | b in after && x in after[b]
      ensures b in before && x in before[b]
    {
      var p := Project(ids, tags, b);
      var k :| 0 <= k < |after[b]| && after[b][k] == x;
      assert before[b][|p| + k] == x;
    }
  }
}

=== FILE: seating.dfy ===
/**
 * The reference definition of what the allocator seats in one room and over a
 * whole run, written as functions over the queues, with the properties of the
 * seating plan proved about them. The loop methods in module Allocator are
 * proved equal to these functions.
 */
module Seating {
  import opened Domain
  import opened BenchLayout
  import opened Queues

  function Min(a: int, b: int): int { if a <= b then a else b }

  /** Seats in a room: two per bench. */
  function SeatsIn(room: Room): nat { 2 * (room.rows * room.columns) }

  /**
   * The first position at or after `from` in the branch order whose branch
   * still has queued students; |order| when there is none. This is the
   * cursor-advancing skip of the two-branch policy.
   */
  function NextSupplied(order: seq<string>, queues: Cohorts, from: nat): (i: nat)
    requires from <= |order|
    ensures from <= i <= |order|
    ensures i < |order| ==> |Queue(queues, order[i])| > 0
    ensures forall j :: from <= j < i ==> |Queue(queues, order[j])| == 0
    decreases |order| - from
  {
    if from == |order| || |Queue(queues, order[from])| > 0 then from
    else NextSupplied(order, queues, from + 1)
  }

  /**
   * The branch a one-branch room is given: the first branch of the policy
   * order with queued students, or "" when every listed branch is exhausted.
   */
  function CurrentBranch(branches: seq<string>, queues: Cohorts): (b: string)
    ensures b != "" ==> |Queue(queues, b)| > 0
    ensures b != "" ==>
      (exists i :: 0 <= i < |branches| && branches[i] == b && (forall j :: 0 <= j < i ==> |Queue(queues, branches[j])| == 0))
    ensures (forall j :: 0 <= j < |branches| ==> |Queue(queues, branches[j])| == 0) ==> b == ""
  {
    var i := NextSupplied(branches, queues, 0);
    if i < |branches| then branches[i] else ""
  }

  /** The seat at place `slot` of the filling order: bench slot / 2, left on even places. */
  function SeatAt(room: Room, rowWise: bool, slot: nat, id: string, toe: Instant, doe: Duration): (s: Seat)
    requires slot < SeatsIn(room)
    ensures InGrid(room, SeatCell(s)) && BenchIndex(room, rowWise, SeatCell(s)) == slot / 2
    ensures s.studentId == id && s.toe == toe && s.doe == doe
  {
    var c := BenchCell(room, rowWise, slot / 2);
    Seat(id, c.row, c.column, if slot % 2 == 0 then Left else Right, toe, doe)
  }

  /**
   * One-branch room: the queue's head students take the seats in filling
   * order until the room or the queue runs out.
   */
  function SingleBranchSeats(room: Room, rowWise: bool, queue: seq<string>, toe: Instant, doe: Duration): (seats: seq<Seat>)
    ensures |seats| == Min(SeatsIn(room), |queue|)
    ensures SeatIds(seats) == queue[..|seats|]
  {
    var n := Min(SeatsIn(room), |queue|);
    var seats := seq(n, k requires 0 <= k < n => SeatAt(room, rowWise, k, queue[k], toe, doe));
    assert forall k :: 0 <= k < n ==> SeatIds(seats)[k] == queue[k];
    seats
  }

  /** Seats built place by place from the queue heads are the one-branch room's seats. */
  lemma SingleBranchSeatsAre(room: Room, rowWise: bool, queue: seq<string>, toe: Instant, doe: Duration,
                             seats: seq<Seat>)
    requires |seats| == Min(SeatsIn(room), |queue|)
    requires forall k :: 0 <= k < |seats| ==> seats[k] == SeatAt(room, rowWise, k, queue[k], toe, doe)
    ensures seats == SingleBranchSeats(room, rowWise, queue, toe, doe)
  {
  }

  /** The one-branch room fills its benches in order, left then right, and stamps the exam time. */
  lemma SingleBranchLayout(room: Room, rowWise: bool, queue: seq<string>, toe: Instant, doe: Duration)
    ensures var seats := SingleBranchSeats(room, rowWise, queue, toe, doe);
      && FilledInOrder(seats, room, rowWise)
      && (forall k :: 0 <= k < |seats| ==> seats[k].side == (if k % 2 == 0 then Left else Right))
      && (forall k :: 0 <= k < |seats| ==> seats[k].toe == toe && seats[k].doe == doe)
  {
    var seats := SingleBranchSeats(room, rowWise, queue, toe, doe);
    forall k | 0 < k < |seats|
      ensures NextInOrder(room, rowWise, seats[k - 1], seats[k])
    {
      if k % 2 == 1 {
        assert (k - 1) / 2 == k / 2;
        assert BenchCell(room, rowWise, k / 2) == SeatCell(seats[k]);
      } else {
        assert (k - 1) / 2 + 1 == k / 2;
      }
    }
  }

  /** What one room's pass produces: its seats, the branch each was drawn from, the queues left. */
  datatype Fill = Fill(seats: seq<Seat>, tags: seq<string>, rest: Cohorts)

  /** One bench of a two-branch room: whether the room stops there, what it seats, the queues and cursor after it. */
  datatype BenchPass = BenchPass(stop: bool, seats: seq<Seat>, tags: seq<string>, rest: Cohorts, cursor: nat)

  /**
   * One bench of a two-branch room, the cursor at `cursor`. The left seat
   * goes to the first supplied branch at or after the cursor, and when there
   * is none the room stops. The right seat goes to the first supplied branch
   * after it, where the search restarts at position 0 only when the left
   * branch was the last of the order; when that search finds nothing the
   * right seat stays empty and the cursor is left at the end of the order.
   */
  function PairBench(room: Room, rowWise: bool, order: seq<string>, queues: Cohorts, cursor: nat, bench: nat,
                     toe: Instant, doe: Duration): (r: BenchPass)
    requires cursor <= |order| && bench < room.rows * room.columns
    ensures r.cursor <= |order| && |r.seats| == |r.tags|
    ensures r.stop <==> NextSupplied(order, queues, cursor) == |order|
    ensures r.stop ==> r.seats == [] && r.rest == queues
    ensures !r.stop ==> 1 <= |r.seats| <= 2
    ensures |r.seats| == 1 ==> r.cursor == |order|
  {
    var a := NextSupplied(order, queues, cursor);
    if a == |order| then BenchPass(true, [], [], queues, a)
    else
      var cell := BenchCell(room, rowWise, bench);
      var left := Seat(queues[order[a]][0], cell.row, cell.column, Left, toe, doe);
      var q1 := queues[order[a] := queues[order[a]][1..]];
      var b := NextSupplied(order, q1, if a + 1 >= |order| then 0 else a + 1);
      if b < |order| then
        var right := Seat(q1[order[b]][0], cell.row, cell.column, Right, toe, doe);
        BenchPass(false, [left, right], [order[a], order[b]], q1[order[b] := q1[order[b]][1..]], b)
      else
        BenchPass(false, [left], [order[a]], q1, b)
  }

  /**
   * A two-branch room from bench `bench` on: bench after bench until the
   * benches run out or a bench stops the room. The cursor carries over from
   * one bench to the next.
   */
  function PairFill(room: Room, rowWise: bool, order: seq<string>, queues: Cohorts, cursor: nat, bench: nat,
                    toe: Instant, doe: Duration): (f: Fill)
    requires cursor <= |order|
    ensures |f.seats| == |f.tags|
    ensures bench <= room.rows * room.columns ==> |f.seats| <= 2 * (room.rows * room.columns - bench)
    decreases room.rows * room.columns - bench
  {
    if bench >= room.rows * room.columns then Fill([], [], queues)
    else
      var r := PairBench(room, rowWise, order, queues, cursor, bench, toe, doe);
      if r.stop then Fill([], [], queues)
      else
        var more := PairFill(room, rowWise, order, r.rest, r.cursor, bench + 1, toe, doe);
        Fill(r.seats + more.seats, r.tags + more.tags, more.rest)
  }

  /** A pass from a bench inside the room is that bench followed by the pass from the next bench. */
  lemma PairFillUnfold(room: Room, rowWise: bool, order: seq<string>, queues: Cohorts, cursor: nat, bench: nat,
                       toe: Instant, doe: Duration)
    requires cursor <= |order| && bench < room.rows * room.columns
    ensures var r := PairBench(room, rowWise, order, queues, cursor, bench, toe, doe);
      var f := PairFill(room, rowWise, order, queues, cursor, bench, toe, doe);
      && (r.stop ==> f == Fill([], [], queues))
      && (!r.stop ==>
            var more := PairFill(room, rowWise, order, r.rest, r.cursor, bench + 1, toe, doe);
            f == Fill(r.seats + more.seats, r.tags + more.tags, more.rest))
  {
  }

  /** The layout, provenance and time-stamp facts every room pass guarantees. */
  predicate WellFilled(f: Fill, room: Room, rowWise: bool, first: int, order: seq<string>, before: Cohorts,
                       toe: Instant, doe: Duration)
  {
    && FilledFrom(f.seats, room, rowWise, first)
    && Drawn(before, f.rest, SeatIds(f.seats), f.tags)
    && (forall k :: 0 <= k < |f.tags| ==> f.tags[k] in order)
    && (forall k :: 0 <= k < |f.seats| ==> f.seats[k].toe == toe && f.seats[k].doe == doe)
  }

  lemma FilledAppend(head: seq<Seat>, more: seq<Seat>, room: Room, rowWise: bool, bench: int)
    requires FilledFrom(head, room, rowWise, bench) && |head| > 0
    requires BenchIndex(room, rowWise, SeatCell(head[|head| - 1])) == bench
    requires FilledFrom(more, room, rowWise, bench + 1)
    ensures FilledFrom(head + more, room, rowWise, bench)
  {
    var seats := head + more;
    var h := |head|;
    forall k | 0 < k < |seats|
      ensures NextInOrder(room, rowWise, seats[k - 1], seats[k])
    {
    }
    forall k | 0 <= k < |seats|
      ensures InGrid(room, SeatCell(seats[k]))
    {
      if k >= h {
        assert seats[k] == more[k - h];
      }
    }
  }

  lemma DrawnAppend(before: Cohorts, mid: Cohorts, after: Cohorts, head: seq<Seat>, headTags: seq<string>,
                    more: seq<Seat>, moreTags: seq<string>)
    requires Drawn(before, mid, SeatIds(head), headTags) && Drawn(mid, after, SeatIds(more), moreTags)
    ensures Drawn(before, after, SeatIds(head + more), headTags + moreTags)
  {
    DrawnTrans(before, mid, after, SeatIds(head), headTags, SeatIds(more), moreTags);
    SeatIdsAppend(head, more);
  }

  /** Appending the passes of later benches to the pass of bench `bench` keeps every fact. */
  lemma WellFilledAppend(head: Fill, more: Fill, room: Room, rowWise: bool, bench: int, order: seq<string>,
                         before: Cohorts, toe: Instant, doe: Duration)
    requires WellFilled(head, room, rowWise, bench, order, before, toe, doe)
    requires |head.seats| > 0
    requires BenchIndex(room, rowWise, SeatCell(head.seats[|head.seats| - 1])) == bench
    requires WellFilled(more, room, rowWise, bench + 1, order, head.rest, toe, doe)
    ensures WellFilled(Fill(head.seats + more.seats, head.tags + more.tags, more.rest),
                       room, rowWise, bench, order, before, toe, doe)
  {
    FilledAppend(head.seats, more.seats, room, rowWise, bench);
    DrawnAppend(before, head.rest, more.rest, head.seats, head.tags, more.seats, more.tags);
    var tags := head.tags + more.tags;
    forall k | 0 <= k < |tags|
      ensures tags[k] in order
    {
      if k >= |head.tags| {
        assert tags[k] == more.tags[k - |head.tags|];
      }
    }
    var seats := head.seats + more.seats;
    forall k | 0 <= k < |seats|
      ensures seats[k].toe == toe && seats[k].doe == doe
    {
      if k >= |head.seats| {
        assert seats[k] == more.seats[k - |head.seats|];
      }
    }
  }

  /** Popping one head of `branch` onto the left seat of bench `bench`. */
  lemma LeftSeatFilled(queues: Cohorts, room: Room, rowWise: bool, order: seq<string>, bench: nat,
                       branch: string, toe: Instant, doe: Duration)
    requires bench < room.rows * room.columns
    requires branch in order && branch in queues && |queues[branch]| > 0
    ensures var cell := BenchCell(room, rowWise, bench);
      WellFilled(Fill([Seat(queues[branch][0], cell.row, cell.column, Left, toe, doe)], [branch],
                      queues[branch := queues[branch][1..]]),
                 room, rowWise, bench, order, queues, toe, doe)
  {
    var cell := BenchCell(room, rowWise, bench);
    var left := Seat(queues[branch][0], cell.row, cell.column, Left, toe, doe);
    DrawnNothing(queues);
    DrawStep(queues, queues, [], [], branch);
  }

  /** Popping one head of `branch` onto the right seat of the bench whose left seat is taken. */
  lemma RightSeatFilled(queues: Cohorts, q1: Cohorts, room: Room, rowWise: bool, order: seq<string>, bench: nat,
                        left: Seat, tag: string, branch: string, toe: Instant, doe: Duration)
    requires WellFilled(Fill([left], [tag], q1), room, rowWise, bench, order, queues, toe, doe)
    requires branch in order && branch in q1 && |q1[branch]| > 0
    ensures var right := Seat(q1[branch][0], left.row, left.column, Right, toe, doe);
      WellFilled(Fill([left, right], [tag, branch], q1[branch := q1[branch][1..]]),
                 room, rowWise, bench, order, queues, toe, doe)
  {
    var right := Seat(q1[branch][0], left.row, left.column, Right, toe, doe);
    var q2 := q1[branch := q1[branch][1..]];
    DrawnPair(queues, q1, left, tag, branch, right);
    BenchPair(room, rowWise, bench, left, right);
  }

  lemma DrawnPair(queues: Cohorts, q1: Cohorts, left: Seat, tag: string, branch: string, right: Seat)
    requires Drawn(queues, q1, SeatIds([left]), [tag])
    requires branch in q1 && |q1[branch]| > 0 && right.studentId == q1[branch][0]
    ensures Drawn(queues, q1[branch := q1[branch][1..]], SeatIds([left, right]), [tag, branch])
  {
    DrawStep(queues, q1, [left.studentId], [tag], branch);
    assert [left.studentId] + [q1[branch][0]] == [left.studentId, right.studentId];
    assert [tag] + [branch] == [tag, branch];
  }

  lemma BenchPair(room: Room, rowWise: bool, bench: int, left: Seat, right: Seat)
    requires FilledFrom([left], room, rowWise, bench)
    requires right.side == Right && SeatCell(right) == SeatCell(left)
    ensures FilledFrom([left, right], room, rowWise, bench)
  {
    assert [left][0] == left;
    var seats := [left, right];
    assert NextInOrder(room, rowWise, seats[0], seats[1]);
  }

  /** A bench that does not stop the room is well filled and ends on that bench. */
  lemma BenchWellFilled(room: Room, rowWise: bool, order: seq<string>, queues: Cohorts, cursor: nat, bench: nat,
                        toe: Instant, doe: Duration)
    requires cursor <= |order| && bench < room.rows * room.columns
    ensures var r := PairBench(room, rowWise, order, queues, cursor, bench, toe, doe);
      !r.stop ==>
        && WellFilled(Fill(r.seats, r.tags, r.rest), room, rowWise, bench, order, queues, toe, doe)
        && BenchIndex(room, rowWise, SeatCell(r.seats[|r.seats| - 1])) == bench
  {
    var a := NextSupplied(order, queues, cursor);
    if a < |order| {
      var q1 := queues[order[a] := queues[order[a]][1..]];
      var b := NextSupplied(order, q1, if a + 1 >= |order| then 0 else a + 1);
      if b < |order| {
        FullBenchFilled(room, rowWise, order, queues, cursor, bench, toe, doe);
      } else {
        LoneBenchFilled(room, rowWise, order, queues, cursor, bench, toe, doe);
      }
    }
  }

  /** A bench that seats a left student and no partner. */
  lemma LoneBenchFilled(room: Room, rowWise: bool, order: seq<string>, queues: Cohorts, cursor: nat, bench: nat,
                        toe: Instant, doe: Duration)
    requires cursor <= |order| && bench < room.rows * room.columns
    requires |PairBench(room, rowWise, order, queues, cursor, bench, toe, doe).seats| == 1
    ensures var r := PairBench(room, rowWise, order, queues, cursor, bench, toe, doe);
      && WellFilled(Fill(r.seats, r.tags, r.rest), room, rowWise, bench, order, queues, toe, doe)
      && BenchIndex(room, rowWise, SeatCell(r.seats[0])) == bench
  {
    var a := NextSupplied(order, queues, cursor);
    LeftSeatFilled(queues, room, rowWise, order, bench, order[a], toe, doe);
  }

  /** A bench that seats a left student and a partner. */
  lemma FullBenchFilled(room: Room, rowWise: bool, order: seq<string>, queues: Cohorts, cursor: nat, bench: nat,
                        toe: Instant, doe: Duration)
    requires cursor <= |order| && bench < room.rows * room.columns
    requires |PairBench(room, rowWise, order, queues, cursor, bench, toe, doe).seats| == 2
    ensures var r := PairBench(room, rowWise, order, queues, cursor, bench, toe, doe);
      && WellFilled(Fill(r.seats, r.tags, r.rest), room, rowWise, bench, order, queues, toe, doe)
      && BenchIndex(room, rowWise, SeatCell(r.seats[1])) == bench
  {
    var a := NextSupplied(order, queues, cursor);
    var cell := BenchCell(room, rowWise, bench);
    var left := Seat(queues[order[a]][0], cell.row, cell.column, Left, toe, doe);
    var q1 := queues[order[a] := queues[order[a]][1..]];
    var b := NextSupplied(order, q1, if a + 1 >= |order| then 0 else a + 1);
    LeftSeatFilled(queues, room, rowWise, order, bench, order[a], toe, doe);
    RightSeatFilled(queues, q1, room, rowWise, order, bench, left, order[a], order[b], toe, doe);
  }

  /**
   * A two-branch room fills benches in order from `bench`, each seat's
   * student drawn from the front of the queue of a branch of the order.
   */
  lemma {:induction false} PairFillFacts(room: Room, rowWise: bool, order: seq<string>, queues: Cohorts,
                                         cursor: nat, bench: nat, toe: Instant, doe: Duration)
    requires cursor <= |order|
    ensures WellFilled(PairFill(room, rowWise, order, queues, cursor, bench, toe, doe),
                       room, rowWise, bench, order, queues, toe, doe)
    decreases room.rows * room.columns - bench
  {
    if bench < room.rows * room.columns && !PairBench(room, rowWise, order, queues, cursor, bench, toe, doe).stop {
      var r := PairBench(room, rowWise, order, queues, cursor, bench, toe, doe);
      BenchWellFilled(room, rowWise, order, queues, cursor, bench, toe, doe);
      PairFillFacts(room, rowWise, order, r.rest, r.cursor, bench + 1, toe, doe);
      WellFilledAppend(Fill(r.seats, r.tags, r.rest), PairFill(room, rowWise, order, r.rest, r.cursor, bench + 1, toe, doe),
                       room, rowWise, bench, order, queues, toe, doe);
    } else {
      DrawnNothing(queues);
    }
  }

  /**
   * The right-seat search only comes back to the left seat's own position
   * when it wrapped all the way round: every other branch of the order is
   * exhausted at that point.
   */
  lemma {:induction false} PartnerSearch(order: seq<string>, queues: Cohorts, a: nat)
    requires a < |order|
    ensures var b := NextSupplied(order, queues, if a + 1 >= |order| then 0 else a + 1);
      b == a ==> forall j :: 0 <= j < |order| && j != a ==> |Queue(queues, order[j])| == 0
  {
    var c := if a + 1 >= |order| then 0 else a + 1;
    var b := NextSupplied(order, queues, c);
    if b == a {
      assert c == 0 && a == |order| - 1;
    }
  }

  /**
   * When the branch names of the order are distinct and at least two of them
   * have queued students, a bench that receives a right-seat student takes it
   * from a different branch than its left-seat student.
   */
  lemma PairedBranchesDiffer(room: Room, rowWise: bool, order: seq<string>, queues: Cohorts,
                             cursor: nat, bench: nat, toe: Instant, doe: Duration)
    requires cursor <= |order| && NoDuplicates(order)
    requires exists i, j :: 0 <= i < j < |order| && |Queue(queues, order[i])| > 0 && |Queue(queues, order[j])| > 0
    ensures var f := PairFill(room, rowWise, order, queues, cursor, bench, toe, doe);
      |f.seats| >= 2 && f.seats[1].side == Right ==> f.tags[0] != f.tags[1]
  {
    if bench < room.rows * room.columns && !PairBench(room, rowWise, order, queues, cursor, bench, toe, doe).stop {
      var r := PairBench(room, rowWise, order, queues, cursor, bench, toe, doe);
      PairFillAtEnd(room, rowWise, order, r.rest, bench + 1, toe, doe);
      var a := NextSupplied(order, queues, cursor);
      var i, j :| 0 <= i < j < |order| && |Queue(queues, order[i])| > 0 && |Queue(queues, order[j])| > 0;
      PartnerIsOtherBranch(order, queues, a, if i != a then i else j);
    }
  }

  /**
   * With distinct branch names, when some branch other than the left seat's
   * still has students after the left pop, a partner found by the right-seat
   * search belongs to another branch.
   */
  lemma PartnerIsOtherBranch(order: seq<string>, queues: Cohorts, a: nat, other: nat)
    requires NoDuplicates(order) && a < |order| && other < |order| && other != a
    requires |Queue(queues, order[a])| > 0 && |Queue(queues, order[other])| > 0
    ensures var q1 := queues[order[a] := queues[order[a]][1..]];
      var b := NextSupplied(order, q1, if a + 1 >= |order| then 0 else a + 1);
      b < |order| ==> order[b] != order[a]
  {
    var q1 := queues[order[a] := queues[order[a]][1..]];
    assert order[other] != order[a] by {
      if other < a {} else {}
    }
    assert Queue(q1, order[other]) == Queue(queues, order[other]);
    PartnerSearch(order, q1, a);
    var b := NextSupplied(order, q1, if a + 1 >= |order| then 0 else a + 1);
    if b < |order| {
      assert b != a;
      if b < a {} else {}
    }
  }

  /** A pass whose cursor stands at the end of the order seats nobody. */
  lemma PairFillAtEnd(room: Room, rowWise: bool, order: seq<string>, queues: Cohorts, bench: nat,
                      toe: Instant, doe: Duration)
    ensures PairFill(room, rowWise, order, queues, |order|, bench, toe, doe).seats == []
  {
  }

  /**
   * One room's pass under a policy: a single branch, two interleaved branches,
   * or nothing for any other combination.
   */
  function FillRoom(policy: Policy, room: Room, before: Cohorts, toe: Instant, doe: Duration): (f: Fill)
    ensures |f.seats| == |f.tags| && |f.seats| <= SeatsIn(room)
  {
    if policy.branchesPerRoom == 1 then
      var b := CurrentBranch(policy.branches, before);
      if b == "" then Fill([], [], before)
      else
        var seats := SingleBranchSeats(room, policy.rowWise, before[b], toe, doe);
        Fill(seats, Repeat(b, |seats|), before[b := before[b][|seats|..]])
    else if policy.branchesPerRoom == 2 && !policy.singleChild then
      PairFill(room, policy.rowWise, policy.branches, before, 0, 0, toe, doe)
    else
      Fill([], [], before)
  }

  /**
   * Every room pass fills benches in order from bench 0, never beyond two
   * seats per bench, and seats students drawn from the fronts of the queues
   * of requested branches, stamped with the exam time and duration.
   */
  lemma RoomFacts(policy: Policy, room: Room, before: Cohorts, toe: Instant, doe: Duration)
    ensures var f := FillRoom(policy, room, before, toe, doe);
      && WellFilled(f, room, policy.rowWise, 0, policy.branches, before, toe, doe)
      && |f.seats| <= SeatsIn(room)
  {
    var f := FillRoom(policy, room, before, toe, doe);
    if policy.branchesPerRoom == 1 {
      var b := CurrentBranch(policy.branches, before);
      if b == "" {
        DrawnNothing(before);
      } else {
        SingleBranchLayout(room, policy.rowWise, before[b], toe, doe);
        DrawnFromOne(before, b, |f.seats|);
      }
    } else if policy.branchesPerRoom == 2 && !policy.singleChild {
      PairFillFacts(room, policy.rowWise, policy.branches, before, 0, 0, toe, doe);
    } else {
      DrawnNothing(before);
    }
    RoomSeatBound(f.seats, room, policy.rowWise);
  }

  /** The branches of a one-branch room: every seat is tagged with the room's current branch. */
  lemma OneBranchPerRoom(policy: Policy, room: Room, before: Cohorts, toe: Instant, doe: Duration)
    requires policy.branchesPerRoom == 1
    ensures var f := FillRoom(policy, room, before, toe, doe);
      forall k :: 0 <= k < |f.tags| ==> f.tags[k] == CurrentBranch(policy.branches, before)
  {
  }

  /**
   * The run, room by room: rooms[i] was visited with the queues snapshots[i]
   * and left snapshots[i + 1]; the first snapshot is the students handed in.
   * Each visited room is recorded under its room number and holds exactly
   * what that room's pass seats; in one-branch mode a room is only visited
   * while some listed branch still has students.
   */
  predicate Run(policy: Policy, rooms: seq<Room>, students: Cohorts, entries: seq<RoomEntry>,
                snapshots: seq<Cohorts>, tags: seq<seq<string>>, toe: Instant, doe: Duration)
    decreases |entries|
  {
    && |entries| <= |rooms|
    && |snapshots| == |entries| + 1
    && |tags| == |entries|
    && if entries == [] then snapshots[0] == students
       else
         var n := |entries| - 1;
         && Run(policy, rooms, students, entries[..n], snapshots[..n + 1], tags[..n], toe, doe)
         && RoomRecorded(policy, rooms[n], snapshots[n], snapshots[n + 1], entries[n], tags[n], toe, doe)
  }

  /**
   * A visited room is recorded under its room number and holds what the
   * room's pass seats from the queues `before`, leaving `after`.
   */
  predicate RoomRecorded(policy: Policy, room: Room, before: Cohorts, after: Cohorts, entry: RoomEntry,
                         tags: seq<string>, toe: Instant, doe: Duration)
  {
    && entry.room == room.roomNumber
    && (policy.branchesPerRoom == 1 ==> CurrentBranch(policy.branches, before) != "")
    && FillRoom(policy, room, before, toe, doe) == Fill(entry.assignments, tags, after)
  }

  /** Recording one more room extends a run. */
  lemma RunExtend(policy: Policy, rooms: seq<Room>, students: Cohorts, entries: seq<RoomEntry>,
                  snapshots: seq<Cohorts>, tags: seq<seq<string>>, toe: Instant, doe: Duration,
                  after: Cohorts, entry: RoomEntry, roomTags: seq<string>)
    requires Run(policy, rooms, students, entries, snapshots, tags, toe, doe) && |entries| < |rooms|
    requires RoomRecorded(policy, rooms[|entries|], snapshots[|entries|], after, entry, roomTags, toe, doe)
    ensures Run(policy, rooms, students, entries + [entry], snapshots + [after], tags + [roomTags], toe, doe)
  {
    var n := |entries|;
    var entries', snapshots', tags' := entries + [entry], snapshots + [after], tags + [roomTags];
  }

  /** A prefix of a run is a run. */
  lemma {:induction false} RunTruncate(policy: Policy, rooms: seq<Room>, students: Cohorts, entries: seq<RoomEntry>,
                                       snapshots: seq<Cohorts>, tags: seq<seq<string>>, toe: Instant, doe: Duration, n: nat)
    requires Run(policy, rooms, students, entries, snapshots, tags, toe, doe) && n <= |entries|
    ensures Run(policy, rooms, students, entries[..n], snapshots[..n + 1], tags[..n], toe, doe)
    decreases |entries| - n
  {
    if n == |entries| {
      assert entries[..n] == entries && snapshots[..n + 1] == snapshots && tags[..n] == tags;
    } else {
      var m := |entries| - 1;
      RunTruncate(policy, rooms, students, entries[..m], snapshots[..m + 1], tags[..m], toe, doe, n);
      assert entries[..m][..n] == entries[..n];
      assert snapshots[..m + 1][..n + 1] == snapshots[..n + 1];
      assert tags[..m][..n] == tags[..n];
    }
  }

  /** Every room of a run is recorded as its pass over the queues it was visited with. */
  lemma RunRoomAt(policy: Policy, rooms: seq<Room>, students: Cohorts, entries: seq<RoomEntry>,
                  snapshots: seq<Cohorts>, tags: seq<seq<string>>, toe: Instant, doe: Duration, i: nat)
    requires Run(policy, rooms, students, entries, snapshots, tags, toe, doe) && i < |entries|
    ensures RoomRecorded(policy, rooms[i], snapshots[i], snapshots[i + 1], entries[i], tags[i], toe, doe)
  {
    RunTruncate(policy, rooms, students, entries, snapshots, tags, toe, doe, i + 1);
  }

  /** A run starts from the students handed in. */
  lemma RunStart(policy: Policy, rooms: seq<Room>, students: Cohorts, entries: seq<RoomEntry>,
                 snapshots: seq<Cohorts>, tags: seq<seq<string>>, toe: Instant, doe: Duration)
    requires Run(policy, rooms, students, entries, snapshots, tags, toe, doe)
    ensures snapshots[0] == students
  {
    RunTruncate(policy, rooms, students, entries, snapshots, tags, toe, doe, 0);
    assert snapshots[..1][0] == snapshots[0];
  }

  /**
   * A run is determined by the rooms, the students and its length: of two
   * runs, the shorter is a prefix of the longer.
   */
  lemma {:induction false} RunPrefix(policy: Policy, rooms: seq<Room>, students: Cohorts, toe: Instant, doe: Duration,
                                     e1: seq<RoomEntry>, s1: seq<Cohorts>, t1: seq<seq<string>>,
                                     e2: seq<RoomEntry>, s2: seq<Cohorts>, t2: seq<seq<string>>)
    requires Run(policy, rooms, students, e1, s1, t1, toe, doe)
    requires Run(policy, rooms, students, e2, s2, t2, toe, doe)
    requires |e1| <= |e2|
    ensures e1 == e2[..|e1|] && s1 == s2[..|e1| + 1] && t1 == t2[..|e1|]
    decreases |e1|
  {
    RunStart(policy, rooms, students, e2, s2, t2, toe, doe);
    if e1 != [] {
      var n := |e1| - 1;
      RunPrefix(policy, rooms, students, toe, doe, e1[..n], s1[..n + 1], t1[..n], e2, s2, t2);
      RunRoomAt(policy, rooms, students, e1, s1, t1, toe, doe, n);
      RunRoomAt(policy, rooms, students, e2, s2, t2, toe, doe, n);
      PrefixExtends(e1, e2, n);
      PrefixExtends(s1, s2, n + 1);
      PrefixExtends(t1, t2, n);
    }
  }

  /** Agreeing on a prefix and on the next element extends the agreement by one. */
  lemma PrefixExtends<T>(a: seq<T>, b: seq<T>, n: nat)
    requires |a| == n + 1 && n < |b| && a[..n] == b[..n] && a[n] == b[n]
    ensures a == b[..n + 1]
  {
  }

  /** What a recorded room guarantees, read off its pass. */
  lemma RecordedFacts(policy: Policy, room: Room, before: Cohorts, after: Cohorts, entry: RoomEntry,
                      tags: seq<string>, toe: Instant, doe: Duration)
    requires RoomRecorded(policy, room, before, after, entry, tags, toe, doe)
    ensures WellFilled(Fill(entry.assignments, tags, after), room, policy.rowWise, 0, policy.branches, before, toe, doe)
    ensures |entry.assignments| <= SeatsIn(room)
  {
    RoomFacts(policy, room, before, toe, doe);
  }

  /** What the last recorded room of a run guarantees. */
  lemma LastRoomFacts(policy: Policy, rooms: seq<Room>, students: Cohorts, entries: seq<RoomEntry>,
                      snapshots: seq<Cohorts>, tags: seq<seq<string>>, toe: Instant, doe: Duration)
    requires Run(policy, rooms, students, entries, snapshots, tags, toe, doe) && entries != []
    ensures var n := |entries| - 1;
      && Run(policy, rooms, students, entries[..n], snapshots[..n + 1], tags[..n], toe, doe)
      && snapshots[..n + 1][n] == snapshots[n]
      && WellFilled(Fill(entries[n].assignments, tags[n], snapshots[n + 1]), rooms[n], policy.rowWise, 0,
                    policy.branches, snapshots[n], toe, doe)
      && |entries[n].assignments| <= SeatsIn(rooms[n])
  {
    var n := |entries| - 1;
    RecordedFacts(policy, rooms[n], snapshots[n], snapshots[n + 1], entries[n], tags[n], toe, doe);
  }

  /** All seats of a run, room after room. */
  function AllSeats(entries: seq<RoomEntry>): seq<Seat>
  {
    if entries == [] then [] else AllSeats(entries[..|entries| - 1]) + entries[|entries| - 1].assignments
  }

  function Flatten(tags: seq<seq<string>>): (all: seq<string>)
  {
    if tags == [] then [] else Flatten(tags[..|tags| - 1]) + tags[|tags| - 1]
  }

  /** Seats available in the first n rooms. */
  function Capacity(rooms: seq<Room>): nat
  {
    if rooms == [] then 0 else Capacity(rooms[..|rooms| - 1]) + SeatsIn(rooms[|rooms| - 1])
  }

  /**
   * Over a whole run the seated ids, room after room, were drawn from the
   * fronts of the branch queues: for every branch, the ids seated from it
   * followed by what is still queued is its original queue. In particular
   * the counter of remaining students of a branch always equals its queue's
   * length, and each branch's seated ids are a prefix of its queue in order.
   */
  lemma {:induction false} RunDrawn(policy: Policy, rooms: seq<Room>, students: Cohorts, entries: seq<RoomEntry>,
                                    snapshots: seq<Cohorts>, tags: seq<seq<string>>, toe: Instant, doe: Duration)
    requires Run(policy, rooms, students, entries, snapshots, tags, toe, doe)
    ensures Drawn(students, snapshots[|entries|], SeatIds(AllSeats(entries)), Flatten(tags))
    decreases |entries|
  {
    if entries == [] {
      DrawnNothing(students);
    } else {
      var n := |entries| - 1;
      LastRoomFacts(policy, rooms, students, entries, snapshots, tags, toe, doe);
      RunDrawn(policy, rooms, students, entries[..n], snapshots[..n + 1], tags[..n], toe, doe);
      DrawnTrans(students, snapshots[n], snapshots[n + 1],
                 SeatIds(AllSeats(entries[..n])), Flatten(tags[..n]),
                 SeatIds(entries[n].assignments), tags[n]);
      SeatIdsAppend(AllSeats(entries[..n]), entries[n].assignments);
    }
  }

  /** Every student seated in a run was drawn from one of the policy's branches. */
  lemma {:induction false} RunBranches(policy: Policy, rooms: seq<Room>, students: Cohorts, entries: seq<RoomEntry>,
                                       snapshots: seq<Cohorts>, tags: seq<seq<string>>, toe: Instant, doe: Duration)
    requires Run(policy, rooms, students, entries, snapshots, tags, toe, doe)
    ensures forall k :: 0 <= k < |Flatten(tags)| ==> Flatten(tags)[k] in policy.branches
    decreases |entries|
  {
    if entries != [] {
      var n := |entries| - 1;
      LastRoomFacts(policy, rooms, students, entries, snapshots, tags, toe, doe);
      RunBranches(policy, rooms, students, entries[..n], snapshots[..n + 1], tags[..n], toe, doe);
      AppendAllIn(Flatten(tags[..n]), tags[n], policy.branches);
    }
  }

  lemma AppendAllIn(a: seq<string>, b: seq<string>, names: seq<string>)
    requires forall k :: 0 <= k < |a| ==> a[k] in names
    requires forall k :: 0 <= k < |b| ==> b[k] in names
    ensures forall k :: 0 <= k < |a + b| ==> (a + b)[k] in names
  {
    forall k | 0 <= k < |a + b|
      ensures (a + b)[k] in names
    {
      if k >= |a| {
        assert (a + b)[k] == b[k - |a|];
      }
    }
  }

  /** When every queued id is distinct, no student is seated twice in a run. */
  lemma RunSeatsEachStudentOnce(policy: Policy, rooms: seq<Room>, students: Cohorts, entries: seq<RoomEntry>,
                                snapshots: seq<Cohorts>, tags: seq<seq<string>>, toe: Instant, doe: Duration)
    requires Run(policy, rooms, students, entries, snapshots, tags, toe, doe)
    requires DistinctIds(students)
    ensures NoDuplicates(SeatIds(AllSeats(entries)))
  {
    RunDrawn(policy, rooms, students, entries, snapshots, tags, toe, doe);
    DrawnNoDuplicates(students, snapshots[|entries|], SeatIds(AllSeats(entries)), Flatten(tags));
  }

  /** A run never seats more students than the visited rooms have seats. */
  lemma {:induction false} RunWithinCapacity(policy: Policy, rooms: seq<Room>, students: Cohorts, entries: seq<RoomEntry>,
                                             snapshots: seq<Cohorts>, tags: seq<seq<string>>, toe: Instant, doe: Duration)
    requires Run(policy, rooms, students, entries, snapshots, tags, toe, doe)
    ensures |AllSeats(entries)| <= Capacity(rooms[..|entries|])
    decreases |entries|
  {
    if entries != [] {
      var n := |entries| - 1;
      LastRoomFacts(policy, rooms, students, entries, snapshots, tags, toe, doe);
      RunWithinCapacity(policy, rooms, students, entries[..n], snapshots[..n + 1], tags[..n], toe, doe);
      assert rooms[..|entries|][..n] == rooms[..n];
    }
  }

  /**
   * One 2x2 room numbered row by row, one branch with five students: benches
   * 0 and 1 (row 1) take a1..a4 left and right, bench 2 (row 2, column 1)
   * takes a5 on its left seat, and the room stops there with 5 of 8 seats used.
   */
  lemma OneBranchScenario(toe: Instant, doe: Duration)
    ensures var room := Room(1, "classroom", 8, "A-01", "", 2, 2);
      SingleBranchSeats(room, true, ["a1", "a2", "a3", "a4", "a5"], toe, doe)
      == [Seat("a1", 1, 1, Left, toe, doe), Seat("a2", 1, 1, Right, toe, doe),
          Seat("a3", 1, 2, Left, toe, doe), Seat("a4", 1, 2, Right, toe, doe),
          Seat("a5", 2, 1, Left, toe, doe)]
  {
  }

  /**
   * A two-branch room stops filling once the cursor runs off the end of the
   * order, even with free benches and queued students: in a 1x2 room with
   * order X, Y, bench 0 seats x1 on the left and y1 on the right, which
   * leaves the cursor on Y; at bench 1 the search for a left seat starts at
   * the exhausted Y, runs off the end of the order without wrapping round
   * to X, and ends the room, leaving x2 and x3 queued.
   */
  lemma TwoBranchRoomStopsEarly(toe: Instant, doe: Duration)
    ensures var room := Room(1, "classroom", 4, "A-01", "", 1, 2);
      var queues := map["X" := ["x1", "x2", "x3"], "Y" := ["y1"]];
      var f := PairFill(room, true, ["X", "Y"], queues, 0, 0, toe, doe);
      && f.seats == [Seat("x1", 1, 1, Left, toe, doe), Seat("y1", 1, 1, Right, toe, doe)]
      && f.rest["X"] == ["x2", "x3"]
  {
  }

  /**
   * A right seat that finds no branch ends the room at the next bench: in a
   * 1x2 room with order X, Y and nobody queued under Y, bench 0 seats x1 on
   * the left; the search for its right seat passes the exhausted Y and leaves
   * the cursor past the end of the order, so bench 1 stops and x2 stays
   * queued although its bench is free.
   */
  lemma TwoBranchRightMissStops(toe: Instant, doe: Duration)
    ensures var room := Room(1, "classroom", 4, "A-01", "", 1, 2);
      var queues := map["X" := ["x1", "x2"], "Y" := []];
      var f := PairFill(room, true, ["X", "Y"], queues, 0, 0, toe, doe);
      && f.seats == [Seat("x1", 1, 1, Left, toe, doe)]
      && f.rest["X"] == ["x2"]
  {
  }
}

=== FILE: selection.dfy ===
/**
 * The exam-assignment request handler: it validates the exam time and
 * duration, selects the rooms of the requested blocks and the students of
 * the requested branches and years from the catalog, optionally shuffles
 * them, and hands both to the allocator.
 */
module Selection {
  import opened Domain
  import opened Queues
  import opened Seating
  import opened Allocator

  /** The catalog's blocks: block name to its rooms, in catalog order. */
  type Blocks = map<string, seq<Room>>

  /** The catalog's classes: branch name to its classes, in catalog order. */
  type Catalog = map<string, seq<Class>>

  /** ContainsInt: whether `value` occurs in `slice`. */
  method ContainsInt(slice: seq<int>, value: int) returns (found: bool)
    ensures found <==> value in slice
  {
    var i := 0;
    while i < |slice|
      invariant i <= |slice|
      invariant value !in slice[..i]
    {
      if slice[i] == value {
        return true;
      }
      assert slice[..i + 1] == slice[..i] + [slice[i]];
      i := i + 1;
    }
    assert slice[..i] == slice;
    return false;
  }

  // ----- Rooms -----

  /** The rooms of the named blocks, block after block; a name the catalog lacks adds nothing. */
  function BlockRooms(blocks: Blocks, names: seq<string>): seq<Room>
  {
    if names == [] then []
    else
      var n := |names| - 1;
      BlockRooms(blocks, names[..n]) + (if names[n] in blocks then blocks[names[n]] else [])
  }

  /** The room selection loop of the handler. */
  method SelectRooms(blocks: Blocks, names: seq<string>) returns (selected: seq<Room>)
    ensures selected == BlockRooms(blocks, names)
  {
    selected := [];
    var i := 0;
    while i < |names|
      invariant i <= |names|
      invariant selected == BlockRooms(blocks, names[..i])
    {
      assert names[..i + 1][..i] == names[..i];
      if names[i] in blocks {
        selected := selected + blocks[names[i]];
      } else {
        assert selected + [] == selected;
      }
      i := i + 1;
    }
    assert names[..i] == names;
  }

  /** Asking for two lists of blocks one after the other selects their rooms one after the other. */
  lemma {:induction false} BlockRoomsAppend(blocks: Blocks, a: seq<string>, b: seq<string>)
    ensures BlockRooms(blocks, a + b) == BlockRooms(blocks, a) + BlockRooms(blocks, b)
    decreases |b|
  {
    if b == [] {
      assert a + b == a;
    } else {
      var n := |b| - 1;
      var ab := a + b;
      assert ab[..|ab| - 1] == a + b[..n];
      assert ab[|ab| - 1] == b[n];
      BlockRoomsAppend(blocks, a, b[..n]);
      var front, middle := BlockRooms(blocks, a), BlockRooms(blocks, b[..n]);
      var last := if b[n] in blocks then blocks[b[n]] else [];
      assert (front + middle) + last == front + (middle + last);
    }
  }

  /** A room is selected exactly when it belongs to a requested block the catalog has. */
  lemma {:induction false} BlockRoomsMember(blocks: Blocks, names: seq<string>, r: Room)
    ensures r in BlockRooms(blocks, names) <==>
      exists k :: 0 <= k < |names| && names[k] in blocks && r in blocks[names[k]]
  {
    if names != [] {
      var n := |names| - 1;
      BlockRoomsMember(blocks, names[..n], r);
      if exists k :: 0 <= k < |names| && names[k] in blocks && r in blocks[names[k]] {
        var k :| 0 <= k < |names| && names[k] in blocks && r in blocks[names[k]];
        if k < n {
          assert names[..n][k] == names[k];
        }
      }
    }
  }

  /** When no requested block is in the catalog, no room is selected. */
  lemma NoKnownBlockNoRooms(blocks: Blocks, names: seq<string>)
    requires forall k :: 0 <= k < |names| ==> names[k] !in blocks
    ensures BlockRooms(blocks, names) == []
  {
    if BlockRooms(blocks, names) != [] {
      BlockRoomsMember(blocks, names, BlockRooms(blocks, names)[0]);
    }
  }

  // ----- Students -----

  /** The ids of the classes whose year is requested, class after class, each in class order. */
  function YearIds(classes: seq<Class>, years: seq<int>): seq<string>
  {
    if classes == [] then []
    else
      var n := |classes| - 1;
      YearIds(classes[..n], years) + (if classes[n].year in years then classes[n].studentIds else [])
  }

  /** Every id of a list of classes, class after class. */
  function AllIds(classes: seq<Class>): seq<string>
  {
    if classes == [] then [] else AllIds(classes[..|classes| - 1]) + classes[|classes| - 1].studentIds
  }

  predicate HasYear(classes: seq<Class>, years: seq<int>)
  {
    exists k :: 0 <= k < |classes| && classes[k].year in years
  }

  /**
   * The inner loop of the student selection over the classes of `branch`:
   * each class of a requested year appends its ids to the branch's queue,
   * creating the key, even when the class has no students.
   */
  function AddClasses(selected: Cohorts, branch: string, classes: seq<Class>, years: seq<int>): Cohorts
  {
    if classes == [] then selected
    else
      var n := |classes| - 1;
      var before := AddClasses(selected, branch, classes[..n], years);
      if classes[n].year in years then before[branch := Queue(before, branch) + classes[n].studentIds]
      else before
  }

  /** The queues the handler selects, branch by branch in request order. */
  function Selected(catalog: Catalog, branches: seq<string>, years: seq<int>): Cohorts
  {
    if branches == [] then map[]
    else
      var n := |branches| - 1;
      var before := Selected(catalog, branches[..n], years);
      if branches[n] in catalog then AddClasses(before, branches[n], catalog[branches[n]], years) else before
  }

  /** The nested student selection loops of the handler. */
  method SelectStudents(catalog: Catalog, branches: seq<string>, years: seq<int>) returns (selected: Cohorts)
    ensures selected == Selected(catalog, branches, years)
  {
    selected := map[];
    var i := 0;
    while i < |branches|
      invariant i <= |branches|
      invariant selected == Selected(catalog, branches[..i], years)
    {
      assert branches[..i + 1][..i] == branches[..i];
      var branch := branches[i];
      if branch in catalog {
        var classes := catalog[branch];
        ghost var start := selected;
        var j := 0;
        while j < |classes|
          invariant j <= |classes|
          invariant selected == AddClasses(start, branch, classes[..j], years)
        {
          assert classes[..j + 1][..j] == classes[..j];
          var requested := ContainsInt(years, classes[j].year);
          if requested {
            selected := selected[branch := Queue(selected, branch) + classes[j].studentIds];
          }
          j := j + 1;
        }
        assert classes[..j] == classes;
      }
      i := i + 1;
    }
    assert branches[..i] == branches;
  }

  /**
   * What the inner loop does to a branch: when some class is of a requested
   * year, the branch's queue is extended by the ids of those classes; else
   * nothing changes.
   */
  lemma {:induction false} AddClassesEffect(selected: Cohorts, branch: string, classes: seq<Class>, years: seq<int>)
    ensures AddClasses(selected, branch, classes, years)
      == if HasYear(classes, years) then selected[branch := Queue(selected, branch) + YearIds(classes, years)]
         else selected
  {
    if classes != [] {
      var n := |classes| - 1;
      var front, ids := classes[..n], classes[n].studentIds;
      AddClassesEffect(selected, branch, front, years);
      HasYearSnoc(classes, years);
      if classes[n].year in years {
        if HasYear(front, years) {
          ExtendTwice(selected, branch, YearIds(front, years), ids);
        } else {
          YearIdsEmpty(front, years);
          assert [] + ids == ids;
        }
      } else {
        assert YearIds(front, years) + [] == YearIds(front, years);
      }
    }
  }

  lemma HasYearSnoc(classes: seq<Class>, years: seq<int>)
    requires classes != []
    ensures var n := |classes| - 1;
      HasYear(classes, years) <==> HasYear(classes[..n], years) || classes[n].year in years
  {
    var n := |classes| - 1;
    if HasYear(classes, years) {
      var k :| 0 <= k < |classes| && classes[k].year in years;
      if k < n {
        assert classes[..n][k] == classes[k];
      }
    }
    if HasYear(classes[..n], years) {
      var k :| 0 <= k < n && classes[..n][k].year in years;
      assert classes[k] == classes[..n][k];
    }
  }

  /** Extending a queue twice extends it once by both parts. */
  lemma ExtendTwice(m: Cohorts, branch: string, a: seq<string>, b: seq<string>)
    ensures var once := m[branch := Queue(m, branch) + a];
      once[branch := Queue(once, branch) + b] == m[branch := Queue(m, branch) + (a + b)]
  {
    assert (Queue(m, branch) + a) + b == Queue(m, branch) + (a + b);
  }

  lemma {:induction false} YearIdsEmpty(classes: seq<Class>, years: seq<int>)
    requires !HasYear(classes, years)
    ensures YearIds(classes, years) == []
  {
    if classes != [] {
      var n := |classes| - 1;
      assert !HasYear(classes[..n], years);
      YearIdsEmpty(classes[..n], years);
    }
  }

  /**
   * A branch gets a queue exactly when it was requested, the catalog has it
   * and one of its classes is of a requested year; a missing branch, or one
   * with no class in a requested year, gets no key.
   */
  lemma {:induction false} SelectedKeys(catalog: Catalog, branches: seq<string>, years: seq<int>, b: string)
    ensures b in Selected(catalog, branches, years) <==>
      b in branches && b in catalog && HasYear(catalog[b], years)
  {
    if branches != [] {
      var n := |branches| - 1;
      SelectedKeys(catalog, branches[..n], years, b);
      assert branches == branches[..n] + [branches[n]];
      if branches[n] in catalog {
        AddClassesEffect(Selected(catalog, branches[..n], years), branches[n], catalog[branches[n]], years);
      }
    }
  }

  /**
   * When no branch is requested twice, a selected branch's queue is the ids
   * of its classes of the requested years, in class order and then in
   * student order.
   */
  lemma {:induction false} SelectedQueue(catalog: Catalog, branches: seq<string>, years: seq<int>, b: string)
    requires NoDuplicates(branches)
    requires b in Selected(catalog, branches, years)
    ensures b in catalog && Selected(catalog, branches, years)[b] == YearIds(catalog[b], years)
  {
    SelectedKeys(catalog, branches, years, b);
    var n := |branches| - 1;
    var front := branches[..n];
    var before := Selected(catalog, front, years);
    assert NoDuplicates(front);
    if branches[n] in catalog {
      AddClassesEffect(before, branches[n], catalog[branches[n]], years);
    }
    if b == branches[n] {
      SelectedKeys(catalog, front, years, b);
      assert b !in front;
      assert Queue(before, b) + YearIds(catalog[b], years) == YearIds(catalog[b], years);
    } else {
      SelectedQueue(catalog, front, years, b);
    }
  }

  /**
   * A branch requested twice has its requested-year ids queued twice: the
   * selection does not deduplicate the branch list.
   */
  lemma DuplicateBranchQueuedTwice(catalog: Catalog, b: string, years: seq<int>)
    requires b in catalog && HasYear(catalog[b], years)
    ensures var ids := YearIds(catalog[b], years);
      Selected(catalog, [b, b], years) == map[b := ids + ids]
  {
    var ids := YearIds(catalog[b], years);
    assert [b, b][..1] == [b] && [b][..0] == [];
    assert Selected(catalog, [], years) == map[];
    AddClassesEffect(map[], b, catalog[b], years);
    assert Queue(map[], b) + ids == ids;
    assert Selected(catalog, [b], years) == map[b := ids];
    AddClassesEffect(map[b := ids], b, catalog[b], years);
    assert Queue(map[b := ids], b) == ids;
  }

  lemma {:induction false} YearIdsMember(classes: seq<Class>, years: seq<int>, x: string)
    ensures x in YearIds(classes, years) <==>
      exists k :: 0 <= k < |classes| && classes[k].year in years && x in classes[k].studentIds
  {
    if classes != [] {
      var n := |classes| - 1;
      YearIdsMember(classes[..n], years, x);
      if exists k :: 0 <= k < |classes| && classes[k].year in years && x in classes[k].studentIds {
        var k :| 0 <= k < |classes| && classes[k].year in years && x in classes[k].studentIds;
        if k < n {
          assert classes[..n][k] == classes[k];
        }
      }
    }
  }

  lemma NoDuplicatesAppend(a: seq<string>, b: seq<string>)
    ensures NoDuplicates(a + b) <==> NoDuplicates(a) && NoDuplicates(b) && forall x :: x in a ==> x !in b
  {
    var ab := a + b;
    if NoDuplicates(ab) {
      forall i, j | 0 <= i < j < |b|
        ensures b[i] != b[j]
      {
        assert ab[|a| + i] == b[i] && ab[|a| + j] == b[j];
      }
      forall x | x in a
        ensures x !in b
      {
        var i :| 0 <= i < |a| && a[i] == x;
        forall j | 0 <= j < |b|
          ensures b[j] != x
        {
          assert ab[i] == a[i] && ab[|a| + j] == b[j];
        }
      }
      assert NoDuplicates(a) by {
        forall i, j | 0 <= i < j < |a|
          ensures a[i] != a[j]
        {
          assert ab[i] == a[i] && ab[j] == a[j];
        }
      }
    }
    if NoDuplicates(a) && NoDuplicates(b) && forall x :: x in a ==> x !in b {
      forall i, j | 0 <= i < j < |ab|
        ensures ab[i] != ab[j]
      {
        if j < |a| {
          assert ab[i] == a[i] && ab[j] == a[j];
        } else if i >= |a| {
          assert ab[i] == b[i - |a|] && ab[j] == b[j - |a|];
        } else {
          assert ab[i] == a[i] && ab[j] == b[j - |a|];
          assert a[i] in a && b[j - |a|] in b;
        }
      }
    }
  }

  /** Filtering classes by year keeps ids distinct, and keeps only ids the classes hold. */
  lemma {:induction false} YearIdsDistinct(classes: seq<Class>, years: seq<int>)
    requires NoDuplicates(AllIds(classes))
    ensures NoDuplicates(YearIds(classes, years))
    ensures forall x :: x in YearIds(classes, years) ==> x in AllIds(classes)
  {
    if classes != [] {
      var n := |classes| - 1;
      var front, ids := classes[..n], classes[n].studentIds;
      NoDuplicatesAppend(AllIds(front), ids);
      YearIdsDistinct(front, years);
      var last := if classes[n].year in years then ids else [];
      NoDuplicatesAppend(YearIds(front, years), last);
    }
  }

  /** Every id of the catalog belongs to one class of one branch. */
  predicate CatalogDistinct(catalog: Catalog)
  {
    && (forall b :: b in catalog ==> NoDuplicates(AllIds(catalog[b])))
    && (forall b1, b2, x :: b1 in catalog && b2 in catalog && b1 != b2 && x in AllIds(catalog[b1]) ==> x !in AllIds(catalog[b2]))
  }

  /**
   * When the catalog holds every id once and no branch is requested twice,
   * the selected queues hold every id once: the allocator's precondition for
   * seating each student at most once.
   */
  lemma SelectedDistinct(catalog: Catalog, branches: seq<string>, years: seq<int>)
    requires CatalogDistinct(catalog) && NoDuplicates(branches)
    ensures DistinctIds(Selected(catalog, branches, years))
  {
    var sel := Selected(catalog, branches, years);
    forall b | b in sel
      ensures b in catalog && sel[b] == YearIds(catalog[b], years)
      ensures forall x :: x in sel[b] ==> x in AllIds(catalog[b])
      ensures NoDuplicates(sel[b])
    {
      SelectedKeys(catalog, branches, years, b);
      SelectedQueue(catalog, branches, years, b);
      YearIdsDistinct(catalog[b], years);
    }
  }

  /** A run on the selected rooms and queues seats each student at most once. */
  lemma SelectedRunSeatsEachStudentOnce(policy: Policy, blocks: Blocks, catalog: Catalog, entries: seq<RoomEntry>,
                                        snapshots: seq<Cohorts>, tags: seq<seq<string>>, toe: Instant, doe: Duration)
    requires CatalogDistinct(catalog) && NoDuplicates(policy.branches)
    requires Run(policy, BlockRooms(blocks, policy.blocks), Selected(catalog, policy.branches, policy.years),
                 entries, snapshots, tags, toe, doe)
    ensures NoDuplicates(SeatIds(AllSeats(entries)))
  {
    SelectedDistinct(catalog, policy.branches, policy.years);
    RunSeatsEachStudentOnce(policy, BlockRooms(blocks, policy.blocks), Selected(catalog, policy.branches, policy.years),
                            entries, snapshots, tags, toe, doe);
  }

  // ----- The handler -----

  /**
   * A request body that bound: the policy, and the exam time and duration as
   * parsed from their text (None when the text does not parse).
   */
  datatype RequestBody = RequestBody(policy: Policy, toe: Option<Instant>, doe: Option<Duration>)

  datatype Outcome =
    | InvalidBody
    | InvalidTime
    | InvalidDuration
    | Assigned(rooms: seq<Room>, queues: Cohorts, aborted: bool, entries: seq<RoomEntry>, queuesAfter: Cohorts)

  /**
   * AssignRoomsForExams: reject a body that does not bind, then an exam time
   * that does not parse, then a duration that does not parse; only then
   * select rooms and students, shuffle the queues when asked, and allocate.
   * `shuffle` stands for the random per-branch shuffle. The allocation
   * panics exactly when its run reaches a short id (`aborted`), and
   * otherwise completes as GenerateExamAssignments does.
   */
  method AssignRoomsForExams(body: Option<RequestBody>, blocks: Blocks, catalog: Catalog, shuffle: Cohorts -> Cohorts)
    returns (r: Outcome, ghost snapshots: seq<Cohorts>, ghost tags: seq<seq<string>>)
    ensures body.None? ==> r == InvalidBody
    ensures body.Some? && body.value.toe.None? ==> r == InvalidTime
    ensures body.Some? && body.value.toe.Some? && body.value.doe.None? ==> r == InvalidDuration
    ensures r.Assigned? <==> body.Some? && body.value.toe.Some? && body.value.doe.Some?
    ensures r.Assigned? ==>
      var policy := body.value.policy;
      var selected := Selected(catalog, policy.branches, policy.years);
      && r.rooms == BlockRooms(blocks, policy.blocks)
      && r.queues == (if policy.internalShuffle then shuffle(selected) else selected)
      && (r.aborted ==> !WellFormedIds(r.queues))
      && (r.aborted ==> Aborts(policy, r.rooms, r.queues, r.entries, snapshots, tags, body.value.toe.value, body.value.doe.value))
      && (!r.aborted ==> Completed(policy, r.rooms, r.queues, r.entries, snapshots, tags, body.value.toe.value, body.value.doe.value))
      && (!r.aborted ==> snapshots[|r.entries|] == r.queuesAfter)
  {
    snapshots, tags := [], [];
    if body.None? {
      r := InvalidBody;
      return;
    }
    var request := body.value;
    if request.toe.None? {
      r := InvalidTime;
      return;
    }
    var toe := request.toe.value;
    if request.doe.None? {
      r := InvalidDuration;
      return;
    }
    var doe := request.doe.value;
    var policy := request.policy;
    var rooms := SelectRooms(blocks, policy.blocks);
    var queues := SelectStudents(catalog, policy.branches, policy.years);
    if policy.internalShuffle {
      queues := shuffle(queues);
    }
    var aborted, entries, queuesAfter;
    aborted, entries, queuesAfter, snapshots, tags := GenerateExamAssignments(rooms, queues, policy, toe, doe);
    r := Assigned(rooms, queues, aborted, entries, queuesAfter);
  }
}

=== FILE: student_ids.dfy ===
/**
 * Student identifiers: how the test catalog builds them (prefix, section and a
 * two-digit serial) and how the allocator reads an admission year and a section
 * back out of their first three characters.
 */
module StudentIds {
  import opened Domain

  predicate IsDigit(c: char) { '0' <= c <= '9' }

  function DigitValue(c: char): (d: nat)
    requires IsDigit(c)
    ensures d < 10
  {
    (c - '0') as nat
  }

  function DigitChar(d: nat): (c: char)
    requires d < 10
    ensures IsDigit(c) && DigitValue(c) == d
  {
    ('0' as int + d) as char
  }

  predicate AllDigits(s: string) { forall i :: 0 <= i < |s| ==> IsDigit(s[i]) }

  /** The value of a string of decimal digits, most significant first. */
  function DigitsValue(s: string): nat
    requires AllDigits(s)
  {
    if s == [] then 0 else 10 * DigitsValue(s[..|s| - 1]) + DigitValue(s[|s| - 1])
  }

  /** Decimal text of n without leading zeros (fmt's %d for a non-negative value). */
  function DecimalString(n: nat): (s: string)
    ensures |s| >= 1 && AllDigits(s)
  {
    if n < 10 then [DigitChar(n)] else DecimalString(n / 10) + [DigitChar(n % 10)]
  }

  /** fmt's %02d for a non-negative value: at least two digits, zero padded. */
  function Pad2(n: nat): (s: string)
    ensures |s| >= 2 && AllDigits(s)
  {
    if n < 10 then "0" + DecimalString(n) else DecimalString(n)
  }

  lemma {:induction false} DecimalStringRoundTrip(n: nat)
    ensures DigitsValue(DecimalString(n)) == n
  {
    if n >= 10 {
      DecimalStringRoundTrip(n / 10);
    }
  }

  lemma {:induction false} LeadingZero(s: string)
    requires AllDigits(s)
    ensures AllDigits("0" + s) && DigitsValue("0" + s) == DigitsValue(s)
  {
    if s != [] {
      var t := "0" + s;
      assert t[..|t| - 1] == "0" + s[..|s| - 1];
      LeadingZero(s[..|s| - 1]);
    }
  }

  /** Reading back the zero-padded serial gives the serial. */
  lemma Pad2RoundTrip(n: nat)
    ensures DigitsValue(Pad2(n)) == n
  {
    DecimalStringRoundTrip(n);
    if n < 10 {
      LeadingZero(DecimalString(n));
    }
  }

  /**
   * strconv.Atoi on a short string: an optional sign followed by at least one
   * decimal digit; anything else is a syntax error (None).
   */
  function Atoi(s: string): (r: Option<int>)
    ensures r.Some? ==> |s| >= 1
  {
    if |s| > 0 && (s[0] == '+' || s[0] == '-') then
      var digits := s[1..];
      if |digits| > 0 && AllDigits(digits) then
        Some(if s[0] == '-' then -(DigitsValue(digits) as int) else DigitsValue(digits))
      else None
    else if |s| > 0 && AllDigits(s) then Some(DigitsValue(s))
    else None
  }

  lemma AtoiOfTwo(c0: char, c1: char)
    ensures IsDigit(c0) && IsDigit(c1) ==> Atoi([c0, c1]) == Some(10 * DigitValue(c0) + DigitValue(c1))
    ensures c0 == '+' && IsDigit(c1) ==> Atoi([c0, c1]) == Some(DigitValue(c1))
    ensures c0 == '-' && IsDigit(c1) ==> Atoi([c0, c1]) == Some(-(DigitValue(c1) as int))
    ensures !IsDigit(c1) ==> Atoi([c0, c1]) == None
    ensures !IsDigit(c0) && c0 != '+' && c0 != '-' ==> Atoi([c0, c1]) == None
  {
    var s := [c0, c1];
    assert s[1..] == [c1];
    if IsDigit(c1) {
      assert [c1][..0] == [];
      assert DigitsValue([c1]) == DigitValue(c1);
    }
    if IsDigit(c0) && IsDigit(c1) {
      assert s[..1] == [c0];
      assert [c0][..0] == [];
      assert DigitsValue([c0]) == DigitValue(c0);
    }
  }

  /**
   * extractYear: Atoi of the first two characters, with a parse error read as 0
   * (the error is discarded). The id must have at least two characters.
   */
  function ExtractYear(id: string): (year: int)
    requires |id| >= 2
    ensures -9 <= year <= 99
    ensures IsDigit(id[0]) && IsDigit(id[1]) ==> year == 10 * DigitValue(id[0]) + DigitValue(id[1])
    ensures id[0] == '+' && IsDigit(id[1]) ==> year == DigitValue(id[1])
    ensures id[0] == '-' && IsDigit(id[1]) ==> year == -(DigitValue(id[1]) as int)
    ensures !IsDigit(id[1]) ==> year == 0
    ensures !IsDigit(id[0]) && id[0] != '+' && id[0] != '-' ==> year == 0
  {
    AtoiOfTwo(id[0], id[1]);
    assert id[..2] == [id[0], id[1]];
    match Atoi(id[..2])
    case Some(v) => v
    case None => 0
  }

  /** extractSection: the third character of the id as a one-character string. */
  function ExtractSection(id: string): (section: string)
    requires |id| >= 3
    ensures |section| == 1 && section[0] == id[2]
  {
    [id[2]]
  }

  /** The id that generateStudentIDs builds for serial i: prefix, section, %02d serial. */
  function GeneratedId(prefix: string, section: string, serial: nat): string
  {
    prefix + section + Pad2(serial)
  }

  /**
   * generateStudentIDs: the serials 1..capacity, in order, appended to
   * prefix + section.
   */
  method GenerateStudentIds(prefix: string, section: string, capacity: int) returns (ids: seq<string>)
    ensures |ids| == if capacity > 0 then capacity else 0
    ensures forall k :: 0 <= k < |ids| ==> ids[k] == GeneratedId(prefix, section, k + 1)
  {
    ids := [];
    var i := 1;
    while i <= capacity
      invariant 1 <= i && (capacity >= 1 ==> i <= capacity + 1) && (capacity < 1 ==> i == 1)
      invariant |ids| == i - 1
      invariant forall k :: 0 <= k < |ids| ==> ids[k] == GeneratedId(prefix, section, k + 1)
    {
      ids := ids + [GeneratedId(prefix, section, i)];
      i := i + 1;
    }
  }

  /** Distinct serials give distinct ids: one generated class has no duplicate id. */
  lemma GeneratedIdsDistinct(prefix: string, section: string, i: nat, j: nat)
    requires i != j
    ensures GeneratedId(prefix, section, i) != GeneratedId(prefix, section, j)
  {
    var head := prefix + section;
    if GeneratedId(prefix, section, i) == GeneratedId(prefix, section, j) {
      var a, b := GeneratedId(prefix, section, i), GeneratedId(prefix, section, j);
      assert a[|head|..] == Pad2(i);
      assert b[|head|..] == Pad2(j);
      Pad2RoundTrip(i);
      Pad2RoundTrip(j);
    }
  }

  /**
   * What the allocator reads from a generated id: the year is the first two
   * characters of the prefix and the "section" is the prefix's third character,
   * not the class section that generateStudentIDs placed after the prefix.
   */
  lemma GeneratedIdFields(prefix: string, section: string, serial: nat)
    requires |prefix| >= 3
    ensures ExtractYear(GeneratedId(prefix, section, serial)) == ExtractYear(prefix)
    ensures ExtractSection(GeneratedId(prefix, section, serial)) == [prefix[2]]
  {
    var id := GeneratedId(prefix, section, serial);
    assert id[..2] == prefix[..2];
  }
}
